=== FILE: README.md ===
# Palette quantisers of a laser-engraver image converter

This project models the core of two converters that turn an image into a
grid of squares, each filled with one of the few colours a laser engraver
can produce.

- `color_to_filled_squares/color_to_squares_retinex.py` covers:
  - the palette resolver `find_closest_palette_color`, which picks the first
    nearest entry under a luminance-weighted RGB distance;
  - the two error-diffusion ditherers `floyd_steinberg_dithering` and
    `atkinson_dithering`;
  - the undithered path and the ditherer selection of
    `generate_pixel_svg_retinex`;
  - the per-channel min/max rescale that ends `retinex_enhancement`;
  - the saturation cap of `enhance_color_differential`.
- `color_to_filled_squares/color_to_squares.py` covers the hue-rule
  classifier `get_closest_color` and its `TARGET_COLORS` hue table.

Modules:

- `Colors` (colors.dfy): pixels with exact `real` channels, per-channel
  arithmetic and sums, and rectangular grids held row-major as
  `seq<seq<T>>` with explicit height and width.
- `ArgMin` (argmin.dfy): the first minimum of a sequence of scores. Both
  numpy's `argmin` and the hue matcher's strict `<` scan pick their answer
  this way.
- `Palette` (palette.dfy): the weighted distance and the resolver, with the
  palette passed as a non-empty sequence. The engraver's ten colours are the
  constant `LaserPalette`.
- `Diffusion` (diffusion.dfy): each kernel is a table of taps `(dy, dx,
  weight)`, kept in the order the two dithering functions apply them. One scan step
  scatters the quantisation error to the taps whose target lies on the grid.
  The module gives a gather view of that step and proves per-channel
  conservation.
- `Dither` (dither.dfy): the row-major scan over a working copy of the
  image, the undithered baseline, and the selection by name. The scan's
  contract reads, cell by cell:
  - every output is a palette entry;
  - every index is the resolver's answer for the value the cell held when
    the scan reached it;
  - that value is the input plus the weighted errors of the cell's kernel
    sources that lie on the grid.
- `Retinex` (retinex.dfy): the min/max rescale, the clip and the 8-bit cast
  of one channel and of a whole image.
- `Saturation` (saturation.dfy): the value-damped saturation multiplier and
  its cap at 1.
- `HueRule` (hue_rule.dfy): the brightness threshold, the grey fallback and
  the nearest-hue match around the colour wheel. `HueRule` includes the
  standard RGB-to-HSV conversion over reals.
- `Scenarios` (scenarios.dfy): small worked examples derived only from the
  contracts above.

## Model

| member | source | states |
|---|---|---|
| ArgMin.FirstMinAmong | color_to_filled_squares/color_to_squares.py:50-63 | a scan that replaces its candidate only on a strictly smaller score ends on a minimum, and every earlier position scores strictly more |
| ArgMin.FirstMin | color_to_filled_squares/color_to_squares_retinex.py:114 | the chosen position holds the smallest score, and every earlier position scores strictly more, as numpy's argmin returns the first minimum |
| ArgMin.FirstMinIsUnique | color_to_filled_squares/color_to_squares_retinex.py:114 | any position that is a first minimum is the one FirstMin returns |
| Palette.Distance | color_to_filled_squares/color_to_squares_retinex.py:109-112 | the weighted distance is never negative |
| Palette.DistanceZeroIffEqual | color_to_filled_squares/color_to_squares_retinex.py:109-112 | the weighted distance is zero exactly when the two colours are equal, since all three weights are positive |
| Palette.FindClosest | color_to_filled_squares/color_to_squares_retinex.py:97-114 | the index is inside the palette; its entry is at least as near as every entry; every lower index is strictly farther, so ties go to the lowest index |
| Palette.ExactEntryResolvesToItself | color_to_filled_squares/color_to_squares_retinex.py:97-114 | a pixel equal to palette entry k resolves to k when no earlier entry has the same colour |
| Palette.LaserPaletteEntriesResolveToThemselves | color_to_filled_squares/color_to_squares_retinex.py:11-25 | each of the ten engraver colours resolves to its own index |
| Palette.RedAndBlackResolve | color_to_filled_squares/color_to_squares_retinex.py:97-114 | with the palette [black, red], red resolves to 1 and black to 0 |
| Diffusion.KernelsPointForward | color_to_filled_squares/color_to_squares_retinex.py:152-163 | every tap of both kernels targets a cell later in row-major order, and no two taps of a kernel share a target |
| Diffusion.NoWeightBackward | color_to_filled_squares/color_to_squares_retinex.py:152-163 | a forward-only kernel puts no weight on the current cell or on any earlier cell |
| Diffusion.FloydSteinbergWeights | color_to_filled_squares/color_to_squares_retinex.py:152-163 | Floyd-Steinberg sends 7/16 east, 3/16 south-west, 5/16 south, 1/16 south-east, and nothing to any other offset |
| Diffusion.AtkinsonWeights | color_to_filled_squares/color_to_squares_retinex.py:191-208 | Atkinson sends 1/8 to east, two east, south-west, south, south-east and two south, and nothing to any other offset |
| Diffusion.ScatterTapCell | color_to_filled_squares/color_to_squares_retinex.py:155-156 | one guarded update adds weight times error to its target when the target is on the grid, and adds nothing to any other cell |
| Diffusion.DiffuseCell | color_to_filled_squares/color_to_squares_retinex.py:152-163 | after one step every on-grid cell holds its old value plus the kernel's weight at its offset times the error |
| Diffusion.Diffuse | color_to_filled_squares/color_to_squares_retinex.py:154-208 | the scatter step of either kernel keeps the grid's shape, and a cell that no tap aims at keeps its value |
| Diffusion.KernelTotals | color_to_filled_squares/color_to_squares_retinex.py:155-208 | Floyd-Steinberg's weights sum to 1 and Atkinson's to 6/8 |
| Diffusion.InBoundsWeightBounded | color_to_filled_squares/color_to_squares_retinex.py:155-163 | the weight that lands on the grid lies between 0 and the kernel's total weight |
| Diffusion.AllTargetsInBounds | color_to_filled_squares/color_to_squares_retinex.py:155-163 | when every target is on the grid, no weight is skipped |
| Diffusion.GridSumAddAt | color_to_filled_squares/color_to_squares_retinex.py:156 | adding an amount to one cell adds exactly that amount to the grid's per-channel total |
| Diffusion.DiffuseAddsInBoundsShare | color_to_filled_squares/color_to_squares_retinex.py:152-163 | one step raises the grid's per-channel total by exactly the on-grid weight times the error |
| Diffusion.FloydSteinbergConservesInterior | color_to_filled_squares/color_to_squares_retinex.py:152-163 | at an interior pixel Floyd-Steinberg passes on the whole error |
| Diffusion.AtkinsonKeepsSixEighthsInterior | color_to_filled_squares/color_to_squares_retinex.py:193-208 | at an interior pixel Atkinson passes on six eighths of the error |
| Dither.ErrorDiffusionDither | color_to_filled_squares/color_to_squares_retinex.py:116-165 | outputs keep the image's shape; every index is in the palette and its colour is that palette entry; every index is the resolver's answer for the value the cell held when the scan reached it; that value is the input plus the weighted errors of the cell's on-grid kernel sources |
| Dither.ScanStart | color_to_filled_squares/color_to_squares_retinex.py:131-134 | before the scan no cell is visited and the working copy equals the input everywhere |
| Dither.NothingVisitedYet | color_to_filled_squares/color_to_squares_retinex.py:131-132 | before the scan no error has reached any cell |
| Dither.DiffuseKeepsVisited | color_to_filled_squares/color_to_squares_retinex.py:152-163 | diffusing from (y, x) leaves (y, x) and every earlier cell unchanged, so a visited cell is never modified again |
| Dither.DiffuseKeepsEarlier | color_to_filled_squares/color_to_squares_retinex.py:152-163 | the same for all cells at once |
| Dither.SourceTermAfterVisit | color_to_filled_squares/color_to_squares_retinex.py:151-163 | visiting (y, x) turns on exactly the taps whose source is (y, x), each bringing its weight times the new error |
| Dither.IncomingAfterVisit | color_to_filled_squares/color_to_squares_retinex.py:151-163 | one visit adds to every cell's gathered error that cell's kernel weight from (y, x) times the new error |
| Dither.CellAfterVisit | color_to_filled_squares/color_to_squares_retinex.py:151-163 | after a visit, a cell still equals its input plus the error it has gathered |
| Dither.VisitStep | color_to_filled_squares/color_to_squares_retinex.py:142-163 | one scan step records the resolver's index and palette colour at (y, x), leaves earlier cells alone, and keeps the gather equation everywhere |
| Dither.RowDone | color_to_filled_squares/color_to_squares_retinex.py:140-141 | finishing a row is the same state as starting the next one |
| Dither.IncomingAtRowEnd | color_to_filled_squares/color_to_squares_retinex.py:140-141 | the error gathered by the end of row y equals the error gathered by the start of row y + 1 |
| Dither.ScanEnd | color_to_filled_squares/color_to_squares_retinex.py:140-165 | once all rows are visited, the invariants hold at every cell |
| Dither.NearestColors | color_to_filled_squares/color_to_squares_retinex.py:259-267 | every index is the resolver's answer for the unperturbed input pixel, and the stored colour is that palette entry |
| Dither.QuantiseByName | color_to_filled_squares/color_to_squares_retinex.py:252-267 | every output is a palette entry; 'floyd-steinberg' returns a Floyd-Steinberg scan and 'atkinson' an Atkinson scan, each with its working values and the per-cell resolver and error equations of that kernel; any other name leaves the working values equal to the input and resolves every pixel as it is |
| Retinex.MinOf | color_to_filled_squares/color_to_squares_retinex.py:58 | the result occurs in the channel and no value is smaller |
| Retinex.MaxOf | color_to_filled_squares/color_to_squares_retinex.py:58 | the result occurs in the channel and no value is larger |
| Retinex.Clip | color_to_filled_squares/color_to_squares_retinex.py:64 | the result lies in [0, 255], equals the input inside that range, and is the nearer end outside it |
| Retinex.ToByte | color_to_filled_squares/color_to_squares_retinex.py:64 | the 8-bit value lies in [0, 255] and is the largest integer not above the clipped value |
| Retinex.NormalizeChannel | color_to_filled_squares/color_to_squares_retinex.py:55-64 | there is no result exactly for an empty channel; otherwise there is one 8-bit value per cell |
| Retinex.NormalizedCell | color_to_filled_squares/color_to_squares_retinex.py:59-60 | a channel with spread maps each cell to the cast of the clipped 255 * (x - min) / (max - min) |
| Retinex.FlatChannelIsMidLevel | color_to_filled_squares/color_to_squares_retinex.py:61-62 | a constant channel becomes 128 everywhere |
| Retinex.MinimumMapsToZero | color_to_filled_squares/color_to_squares_retinex.py:59-60 | a channel with spread sends its minimum to 0 |
| Retinex.MaximumMapsTo255 | color_to_filled_squares/color_to_squares_retinex.py:59-60 | a channel with spread sends its maximum to 255 |
| Retinex.StretchStaysInRange | color_to_filled_squares/color_to_squares_retinex.py:60-64 | inside [min, max] the rescale stays inside [0, 255], so the clip changes nothing |
| Retinex.NormalizeIsMonotone | color_to_filled_squares/color_to_squares_retinex.py:55-64 | a brighter input cell never gives a darker output cell |
| Retinex.NormalizeImage | color_to_filled_squares/color_to_squares_retinex.py:55-64 | there is no result exactly for an empty image; otherwise there is one pixel per input pixel, with every channel in [0, 255] |
| Retinex.UniformImageBecomesMidGrey | color_to_filled_squares/color_to_squares_retinex.py:55-64 | a uniform image becomes uniform (128, 128, 128) |
| Saturation.Damping | color_to_filled_squares/color_to_squares_retinex.py:88 | the damping lies in [3/4, 1] and is 1 exactly at value 0.5 |
| Saturation.BoostSaturation | color_to_filled_squares/color_to_squares_retinex.py:89 | the new saturation never exceeds 1 or the boosted saturation, and equals one of the two |
| Saturation.AdaptiveStrengthBounds | color_to_filled_squares/color_to_squares_retinex.py:88 | the multiplier lies between 3/4 of the strength and the full strength, and is the full strength at value 0.5 |
| Saturation.BoostStaysInUnit | color_to_filled_squares/color_to_squares_retinex.py:88-89 | a saturation in [0, 1] stays in [0, 1] for any non-negative strength |
| Saturation.StrongBoostNeverLowers | color_to_filled_squares/color_to_squares_retinex.py:88-89 | a strength of at least 4/3, which includes the 1.5 used by the converter, never lowers a saturation |
| Saturation.UnitStrengthIsNotIdentity | color_to_filled_squares/color_to_squares_retinex.py:88-89 | as written, strength 1.0 turns saturation 1 at value 1 into 0.75 |
| Saturation.IntendedUnitStrengthIsIdentity | color_to_filled_squares/color_to_squares_retinex.py:73 | with the damping applied to the strength's excess over 1, strength 1.0 leaves every saturation in [0, 1] unchanged |
| Saturation.IntendedBoostNeverLowers | color_to_filled_squares/color_to_squares_retinex.py:73 | with the corrected multiplier, any strength of at least 1 never lowers a saturation and keeps it in [0, 1] |
| Saturation.IntendedAgreesAtMidValue | color_to_filled_squares/color_to_squares_retinex.py:88-89 | at value 0.5 the corrected and the written multipliers agree |
| HueRule.TargetColorsAreValid | color_to_filled_squares/color_to_squares.py:9-17 | the table is non-empty, every hue lies in [0, 360), and every entry has a hex code |
| HueRule.AngularDiff | color_to_filled_squares/color_to_squares.py:56-59 | the difference lies in [0, 180]; it is 0 exactly for equal hues; it is the smaller of the direct and the wrapped-around difference |
| HueRule.AngularDiffIsSymmetric | color_to_filled_squares/color_to_squares.py:56-59 | the difference does not depend on direction |
| HueRule.HueScanOutcome | color_to_filled_squares/color_to_squares.py:50-65 | the loop as written (`HueRule.HueScan`) keeps its candidate when no remaining entry is strictly nearer than the best difference so far, and otherwise ends on the code of a remaining entry that is strictly nearer than that difference |
| HueRule.NearestTarget | color_to_filled_squares/color_to_squares.py:54-63 | the chosen target is at least as near as every target, and every earlier target is strictly farther |
| HueRule.HueScanKeepsFirstMin | color_to_filled_squares/color_to_squares.py:50-65 | a scan that has kept the first nearest target so far ends with the first nearest target of the whole table |
| HueRule.ClosestHueHex | color_to_filled_squares/color_to_squares.py:50-65 | the loop as written, starting from 360 and an empty string, returns the nearest target's code and never the empty string |
| HueRule.ExactHueMapsToItsTarget | color_to_filled_squares/color_to_squares.py:54-63 | a hue equal to a target's hue maps to that target when no earlier target has the same hue |
| HueRule.RgbToHsv | color_to_filled_squares/color_to_squares.py:39 | hue in [0, 1), saturation in [0, 1], value equal to the largest channel, and saturation 0 exactly for grey pixels |
| HueRule.GetClosestColor | color_to_filled_squares/color_to_squares.py:19-65 | the result is black, light grey or one of the six target codes; it is never empty; it is black when max(r, g, b) < 25 |
| HueRule.GreyishPixelsFallBack | color_to_filled_squares/color_to_squares.py:45-47 | a pixel past the threshold with saturation below 0.45 or value below 0.15 becomes light grey when its value exceeds 0.5, and black otherwise |
| HueRule.ColourfulPixelsMatchHue | color_to_filled_squares/color_to_squares.py:36-65 | any other pixel past the threshold gets the target nearest to its hue in degrees |
| HueRule.PureBlueIsBlue | color_to_filled_squares/color_to_squares.py:9-17 | pure blue has hue 240 and maps to "#0000FF" |
| Scenarios.TwoEntryChoice | color_to_filled_squares/color_to_squares_retinex.py:112-114 | with two entries the second is chosen exactly when it is strictly nearer |
| Scenarios.OneColumnIncoming | color_to_filled_squares/color_to_squares_retinex.py:155-163 | in a one-column grid a cell below the top gathers 5/16 of the error of the cell above, and the top cell gathers nothing |
| Scenarios.StripResolutions | color_to_filled_squares/color_to_squares_retinex.py:109-114 | against black and light grey, 10 resolves to black, and 253.125 and 272.8515625 resolve to grey |
| Scenarios.StripCells | color_to_filled_squares/color_to_squares_retinex.py:140-163 | when each strip cell (10, 250, 250) holds its input plus 5/16 of the error from above and is resolved against black and light grey, the indices are [[0], [1], [1]] |
| Scenarios.VerticalStripScenario | color_to_filled_squares/color_to_squares_retinex.py:252-255 | selecting 'floyd-steinberg' for the strip (10, 250, 250) with palette [black, light grey] yields the indices [[0], [1], [1]] |
| Scenarios.RedBlackScenario | color_to_filled_squares/color_to_squares_retinex.py:259-267 | without dithering, a red and a black pixel on [black, red] give the index row [1, 0] |

## Left out

- The Gaussian blur and logarithm of `retinex_enhancement` (lines 40-53) are
  scipy and float numerics. The rescale takes an arbitrary real channel in
  their place.
- The `colorsys` HSV round trip of `enhance_color_differential` (lines
  81-95) is not modelled. Only the saturation formula of lines 88-89 is, on
  an abstract saturation and value.
- float32 accumulation, float rounding and the uint8 output arrays are not
  modelled. Channels are exact reals, so a tie between palette distances is
  decided on exact values.
- Palette.Distance: the distance is compared squared, without the square
  root. The root is monotone, so the argmin does not change.
- Retinex.MaximumMapsTo255: holds for exact reals only. In float32,
  `255 * (x - min) / (max - min)` at the maximum can come out just below
  255, for example 254.99998, and the uint8 cast then gives 254.
- Retinex.NormalizeChannel: an empty channel gives `None`, where numpy's
  `min` raises. The 8-bit cast is the floor, which matches truncation
  because the value is already clipped to [0, 255].
- Dither.QuantiseByName: an unrecognised method name falls through to the
  undithered path, as the code does. The docstring lists only three names.
- The input image is a value, so "the caller's array is untouched" holds by
  construction and is not stated as a separate contract.
- The palette is a parameter. The module-level `PALETTE` is the constant
  `Palette.LaserPalette`.
- HueRule.ColourfulPixelsMatchHue: holds for exact reals, and the float
  program differs on two kinds of 8-bit pixel. At an exact saturation of
  0.45, float gives 0.44999999999999996 and the pixel falls back to grey or
  black: (60, 33, 33) gives "#000000" where the model gives "#FF0000".
  Exactly halfway between two target hues, float rounding can break the tie
  towards the later entry: (40, 33, 12) has hue 45.00000000000001 in float
  and gives "#D0D000" where the model's exact tie gives "#FF8000".
- HueRule.RgbToHsv is the standard conversion written over reals. The
  `colorsys` module itself is not part of this model.
- Image loading, SVG emission, file writing, previews, command-line parsing
  and the test-pattern, test-scaffolding and comparison scripts are not
  modelled. They are I/O and reporting around the core.

## Findings

| source | as written | input that shows it | evidently intended | confidence | as-written member | corrected member |
|---|---|---|---|---|---|---|
| color_to_filled_squares/color_to_squares_retinex.py:88-89 | the multiplier is `strength * (1 - abs(v - 0.5) * 0.5)`, so the damping also scales the part of the strength that means "no change" | strength 1.0, saturation 1.0, value 1.0 gives saturation 0.75 | the docstring at line 73 says a strength of 1.0 is no change; damping only the excess `1 + (strength - 1) * damping` makes 1.0 the identity and never lowers a saturation for strengths of at least 1 | medium, not executed | Saturation.UnitStrengthIsNotIdentity | Saturation.IntendedUnitStrengthIsIdentity |

=== FILE: argmin.dfy ===
/** First minimum of a non-empty sequence of scores: the smallest score,
    and among equal smallest scores the lowest position. Both the palette
    resolver (numpy's argmin) and the hue matcher (a strict `<` scan) pick
    their answer this way. */
module ArgMin {

  ghost predicate IsFirstMin(s: seq<real>, k: int) {
    && 0 <= k < |s|
    && (forall j :: 0 <= j < |s| ==> s[k] <= s[j])
    && (forall j :: 0 <= j < k ==> s[j] > s[k])
  }

  /** Scan the first `n` scores upwards, replacing the candidate only on a
      strictly smaller score. */
  function FirstMinAmong(s: seq<real>, n: nat): (k: nat)
    requires 0 < n <= |s|
    ensures k < n
    ensures forall j :: 0 <= j < n ==> s[k] <= s[j]
    ensures forall j :: 0 <= j < k ==> s[j] > s[k]
    decreases n
  {
    if n == 1 then 0
    else
      var k := FirstMinAmong(s, n - 1);
      if s[n - 1] < s[k] then n - 1 else k
  }

  function FirstMin(s: seq<real>): (k: nat)
    requires |s| > 0
    ensures IsFirstMin(s, k)
  {
    FirstMinAmong(s, |s|)
  }

  /** There is only one first minimum, so FirstMin is the only function that
      meets its contract. */
  lemma FirstMinIsUnique(s: seq<real>, k: int)
    requires IsFirstMin(s, k)
    ensures k == FirstMin(s)
  {
  }
}

=== FILE: colors.dfy ===
/** Shared data model of the quantisation pipeline: colour triples with exact
    real channels, rectangular pixel grids stored row-major, and a small
    Option type for operations that fail on degenerate input. */
module Colors {

  /** A pixel: three channel intensities. Intermediate values may leave
      [0, 255] because error diffusion can push a cell past either end. */
  datatype Rgb = Rgb(r: real, g: real, b: real)

  /** The zero triple: black as a colour, no change as an error. */
  const Zero: Rgb := Rgb(0.0, 0.0, 0.0)

  function Add(a: Rgb, b: Rgb): Rgb {
    Rgb(a.r + b.r, a.g + b.g, a.b + b.b)
  }

  function Sub(a: Rgb, b: Rgb): Rgb {
    Rgb(a.r - b.r, a.g - b.g, a.b - b.b)
  }

  function Scale(k: real, a: Rgb): Rgb {
    Rgb(k * a.r, k * a.g, k * a.b)
  }

  lemma ScaleDistributes(u: real, v: real, e: Rgb)
    ensures Add(Scale(u, e), Scale(v, e)) == Scale(u + v, e)
  {
  }

  lemma ScaleByZero(a: Rgb, e: Rgb)
    ensures Add(a, Scale(0.0, e)) == a
  {
  }

  /** `after` is `before` moved by `k` times `e`, channel by channel; the
      same as `after == Add(before, Scale(k, e))` (see ShiftedIsAdd), but
      stated on the channels so that proofs about sums stay in real
      arithmetic. */
  predicate Shifted(before: Rgb, after: Rgb, k: real, e: Rgb) {
    && after.r == before.r + k * e.r
    && after.g == before.g + k * e.g
    && after.b == before.b + k * e.b
  }

  lemma ShiftedIsAdd(before: Rgb, after: Rgb, k: real, e: Rgb)
    ensures Shifted(before, after, k, e) <==> after == Add(before, Scale(k, e))
  {
  }

  /** Adding a shifted value is adding the original and then the shift. */
  lemma AddShifted(a: Rgb, before: Rgb, after: Rgb, k: real, e: Rgb)
    requires Shifted(before, after, k, e)
    ensures Add(Add(a, before), Scale(k, e)) == Add(a, after)
  {
  }

  datatype Channel = Red | Green | Blue

  function Level(c: Rgb, ch: Channel): real {
    match ch
    case Red => c.r
    case Green => c.g
    case Blue => c.b
  }

  /** One channel of a sequence of colour triples. */
  function Plane(s: seq<Rgb>, ch: Channel): (p: seq<real>)
    ensures |p| == |s| && forall i :: 0 <= i < |s| ==> p[i] == Level(s[i], ch)
  {
    seq(|s|, i requires 0 <= i < |s| => Level(s[i], ch))
  }

  function SumReal(s: seq<real>): real {
    if s == [] then 0.0 else s[0] + SumReal(s[1..])
  }

  /** Sum of one channel over a sequence of colour triples. */
  function SumLevel(s: seq<Rgb>, ch: Channel): real {
    if s == [] then 0.0 else Level(s[0], ch) + SumLevel(s[1..], ch)
  }

  /** Per-channel sum of a sequence of colour triples. */
  function SumRgb(s: seq<Rgb>): Rgb {
    Rgb(SumLevel(s, Red), SumLevel(s, Green), SumLevel(s, Blue))
  }

  lemma {:induction false} SumLevelOfZeros(s: seq<Rgb>, ch: Channel)
    requires forall i :: 0 <= i < |s| ==> s[i] == Zero
    ensures SumLevel(s, ch) == 0.0
  {
    if s != [] {
      SumLevelOfZeros(s[1..], ch);
    }
  }

  lemma {:induction false} SumOfZeros(s: seq<Rgb>)
    requires forall i :: 0 <= i < |s| ==> s[i] == Zero
    ensures SumRgb(s) == Zero
  {
    SumLevelOfZeros(s, Red);
    SumLevelOfZeros(s, Green);
    SumLevelOfZeros(s, Blue);
  }

  lemma {:induction false} SumLevelOfSingle(s: seq<Rgb>, k: nat, ch: Channel)
    requires k < |s|
    requires forall i :: 0 <= i < |s| && i != k ==> s[i] == Zero
    ensures SumLevel(s, ch) == Level(s[k], ch)
  {
    if k == 0 {
      SumLevelOfZeros(s[1..], ch);
    } else {
      SumLevelOfSingle(s[1..], k - 1, ch);
    }
  }

  /** A sum with at most one non-zero term is that term. */
  lemma {:induction false} SumOfSingle(s: seq<Rgb>, k: nat)
    requires k < |s|
    requires forall i :: 0 <= i < |s| && i != k ==> s[i] == Zero
    ensures SumRgb(s) == s[k]
  {
    SumLevelOfSingle(s, k, Red);
    SumLevelOfSingle(s, k, Green);
    SumLevelOfSingle(s, k, Blue);
  }

  /** If every term gains its own multiple of `e`, one channel of the sum
      gains the sum of the multiples times that channel of `e`. */
  lemma {:induction false} SumLevelShift(a: seq<Rgb>, b: seq<Rgb>, ws: seq<real>, e: Rgb, ch: Channel)
    requires |a| == |b| == |ws|
    requires forall i :: 0 <= i < |a| ==> Shifted(a[i], b[i], ws[i], e)
    ensures SumLevel(b, ch) == SumLevel(a, ch) + SumReal(ws) * Level(e, ch)
  {
    if a != [] {
      SumLevelShift(a[1..], b[1..], ws[1..], e, ch);
      assert Shifted(a[0], b[0], ws[0], e);
      assert Level(b[0], ch) == Level(a[0], ch) + ws[0] * Level(e, ch);
      assert (ws[0] + SumReal(ws[1..])) * Level(e, ch) == ws[0] * Level(e, ch) + SumReal(ws[1..]) * Level(e, ch);
    }
  }

  /** If every term is shifted by its own multiple of `e`, the sum is
      shifted by the sum of the multiples. */
  lemma {:induction false} SumShift(a: seq<Rgb>, b: seq<Rgb>, ws: seq<real>, e: Rgb)
    requires |a| == |b| == |ws|
    requires forall i :: 0 <= i < |a| ==> Shifted(a[i], b[i], ws[i], e)
    ensures Shifted(SumRgb(a), SumRgb(b), SumReal(ws), e)
  {
    SumLevelShift(a, b, ws, e, Red);
    SumLevelShift(a, b, ws, e, Green);
    SumLevelShift(a, b, ws, e, Blue);
  }

  function Abs(x: real): real {
    if x < 0.0 then -x else x
  }

  /** A share of a positive whole lies in [0, 1]. */
  lemma QuotientBounds(a: real, d: real)
    requires d > 0.0 && 0.0 <= a <= d
    ensures 0.0 <= a / d <= 1.0
  {
  }

  datatype Option<T> = None | Some(value: T)

  /** `g` has `h` rows of `w` cells each. */
  ghost predicate IsGrid<T>(g: seq<seq<T>>, h: nat, w: nat) {
    |g| == h && forall y :: 0 <= y < h ==> |g[y]| == w
  }

  predicate InBounds(h: nat, w: nat, y: int, x: int) {
    0 <= y < h && 0 <= x < w
  }

  /** Cell (y1, x1) comes strictly before cell (y2, x2) in row-major scan order. */
  predicate Before(y1: int, x1: int, y2: int, x2: int) {
    y1 < y2 || (y1 == y2 && x1 < x2)
  }

  /** The grid with cell (y, x) replaced by `v`. */
  function SetCell<T>(g: seq<seq<T>>, y: nat, x: nat, v: T): seq<seq<T>>
    requires y < |g| && x < |g[y]|
  {
    g[y := g[y][x := v]]
  }

  /** A grid of `h` rows and `w` columns filled with `v` (numpy's zeros/zeros_like). */
  function Filled<T>(h: nat, w: nat, v: T): (g: seq<seq<T>>)
    ensures IsGrid(g, h, w)
    ensures forall y, x :: InBounds(h, w, y, x) ==> g[y][x] == v
  {
    seq(h, _ => seq(w, _ => v))
  }
}

=== FILE: diffusion.dfy ===
/** Error-diffusion kernels and the per-pixel scatter step shared by the
    Floyd-Steinberg and Atkinson ditherers. */
module Diffusion {
  import opened Colors

  /** One kernel entry: the target cell lies (dy, dx) away from the cell
      being quantised and receives `weight` times its quantisation error. */
  datatype Tap = Tap(dy: int, dx: int, weight: real)

  datatype Kernel = FloydSteinberg | Atkinson

  /** The kernels' taps in the order floyd_steinberg_dithering and
      atkinson_dithering apply them. */
  function Taps(k: Kernel): seq<Tap> {
    match k
    case FloydSteinberg =>
      [Tap(0, 1, 7.0 / 16.0), Tap(1, -1, 3.0 / 16.0), Tap(1, 0, 5.0 / 16.0), Tap(1, 1, 1.0 / 16.0)]
    case Atkinson =>
      [Tap(0, 1, 1.0 / 8.0), Tap(0, 2, 1.0 / 8.0), Tap(1, -1, 1.0 / 8.0),
       Tap(1, 0, 1.0 / 8.0), Tap(1, 1, 1.0 / 8.0), Tap(2, 0, 1.0 / 8.0)]
  }

  /** Offset (dy, dx) leads to a cell strictly later in row-major order. */
  predicate Forward(dy: int, dx: int) {
    dy > 0 || (dy == 0 && dx > 0)
  }

  ghost predicate AllForward(taps: seq<Tap>) {
    forall i :: 0 <= i < |taps| ==> Forward(taps[i].dy, taps[i].dx)
  }

  /** Both kernels only reach cells that the scan has not visited yet, and
      neither reaches the same cell twice. */
  lemma KernelsPointForward(k: Kernel)
    ensures AllForward(Taps(k))
    ensures forall i, j :: 0 <= i < j < |Taps(k)| ==> (Taps(k)[i].dy, Taps(k)[i].dx) != (Taps(k)[j].dy, Taps(k)[j].dx)
  {
  }

  /** Total weight of the taps at offset (dy, dx); zero where there is none. */
  function WeightAt(taps: seq<Tap>, dy: int, dx: int): real {
    if taps == [] then 0.0
    else (if taps[0].dy == dy && taps[0].dx == dx then taps[0].weight else 0.0) + WeightAt(taps[1..], dy, dx)
  }

  /** The share of an error that tap `t` sends along offset (dy, dx). */
  function TapShare(t: Tap, dy: int, dx: int): real {
    if t.dy == dy && t.dx == dx then t.weight else 0.0
  }

  /** Each tap's share along offset (dy, dx), in kernel order. */
  function Shares(taps: seq<Tap>, dy: int, dx: int): (ws: seq<real>)
    ensures |ws| == |taps|
    ensures forall i :: 0 <= i < |taps| ==> ws[i] == TapShare(taps[i], dy, dx)
  {
    seq(|taps|, i requires 0 <= i < |taps| => TapShare(taps[i], dy, dx))
  }

  lemma {:induction false} WeightAtIsSumOfShares(taps: seq<Tap>, dy: int, dx: int)
    ensures WeightAt(taps, dy, dx) == SumReal(Shares(taps, dy, dx))
  {
    if taps != [] {
      assert Shares(taps, dy, dx)[1..] == Shares(taps[1..], dy, dx);
      WeightAtIsSumOfShares(taps[1..], dy, dx);
    }
  }

  /** A forward-only kernel puts no weight on the current cell or any earlier one. */
  lemma {:induction false} NoWeightBackward(taps: seq<Tap>, dy: int, dx: int)
    requires AllForward(taps)
    requires !Forward(dy, dx)
    ensures WeightAt(taps, dy, dx) == 0.0
  {
    if taps != [] {
      NoWeightBackward(taps[1..], dy, dx);
    }
  }

  /** Floyd-Steinberg: 7/16 east, 3/16 south-west, 5/16 south, 1/16 south-east, nothing elsewhere. */
  lemma FloydSteinbergWeights(dy: int, dx: int)
    ensures WeightAt(Taps(FloydSteinberg), dy, dx) ==
      (if dy == 0 && dx == 1 then 7.0 / 16.0
       else if dy == 1 && dx == -1 then 3.0 / 16.0
       else if dy == 1 && dx == 0 then 5.0 / 16.0
       else if dy == 1 && dx == 1 then 1.0 / 16.0
       else 0.0)
  {
    var t := Taps(FloydSteinberg);
    assert t[3..] == [Tap(1, 1, 1.0 / 16.0)] && t[3..][1..] == [];
    assert t[2..] == [Tap(1, 0, 5.0 / 16.0)] + t[3..] && t[2..][1..] == t[3..];
    assert t[1..][1..] == t[2..];
    assert WeightAt(t[3..], dy, dx) == if dy == 1 && dx == 1 then 1.0 / 16.0 else 0.0;
    assert WeightAt(t[2..], dy, dx) == (if dy == 1 && dx == 0 then 5.0 / 16.0 else 0.0) + WeightAt(t[3..], dy, dx);
    assert WeightAt(t[1..], dy, dx) == (if dy == 1 && dx == -1 then 3.0 / 16.0 else 0.0) + WeightAt(t[2..], dy, dx);
    assert WeightAt(t, dy, dx) == (if dy == 0 && dx == 1 then 7.0 / 16.0 else 0.0) + WeightAt(t[1..], dy, dx);
  }

  /** Atkinson: 1/8 to east, east+2, south-west, south, south-east and south+2, nothing elsewhere. */
  lemma AtkinsonWeights(dy: int, dx: int)
    ensures WeightAt(Taps(Atkinson), dy, dx) ==
      (if (dy == 0 && (dx == 1 || dx == 2)) || (dy == 1 && -1 <= dx <= 1) || (dy == 2 && dx == 0)
       then 1.0 / 8.0 else 0.0)
  {
    var t := Taps(Atkinson);
    assert t[5..] == [Tap(2, 0, 1.0 / 8.0)] && t[5..][1..] == [];
    assert t[4..][1..] == t[5..];
    assert t[3..][1..] == t[4..];
    assert t[2..][1..] == t[3..];
    assert t[1..][1..] == t[2..];
    var e := 1.0 / 8.0;
    assert WeightAt(t[5..], dy, dx) == if dy == 2 && dx == 0 then e else 0.0;
    assert WeightAt(t[4..], dy, dx) == (if dy == 1 && dx == 1 then e else 0.0) + WeightAt(t[5..], dy, dx);
    assert WeightAt(t[3..], dy, dx) == (if dy == 1 && dx == 0 then e else 0.0) + WeightAt(t[4..], dy, dx);
    assert WeightAt(t[2..], dy, dx) == (if dy == 1 && dx == -1 then e else 0.0) + WeightAt(t[3..], dy, dx);
    assert WeightAt(t[1..], dy, dx) == (if dy == 0 && dx == 2 then e else 0.0) + WeightAt(t[2..], dy, dx);
    assert WeightAt(t, dy, dx) == (if dy == 0 && dx == 1 then e else 0.0) + WeightAt(t[1..], dy, dx);
  }

  function AddAt(g: seq<seq<Rgb>>, y: nat, x: nat, d: Rgb): seq<seq<Rgb>>
    requires y < |g| && x < |g[y]|
  {
    SetCell(g, y, x, Add(g[y][x], d))
  }

  lemma {:induction false} AddAtCell(g: seq<seq<Rgb>>, h: nat, w: nat, y: nat, x: nat, d: Rgb, cy: nat, cx: nat)
    requires IsGrid(g, h, w)
    requires InBounds(h, w, y, x) && InBounds(h, w, cy, cx)
    ensures IsGrid(AddAt(g, y, x, d), h, w)
    ensures AddAt(g, y, x, d)[cy][cx] == if cy == y && cx == x then Add(g[cy][cx], d) else g[cy][cx]
  {
  }

  /** Some tap of the kernel sends error along offset (dy, dx). */
  predicate Aimed(taps: seq<Tap>, dy: int, dx: int) {
    taps != [] && ((taps[0].dy == dy && taps[0].dx == dx) || Aimed(taps[1..], dy, dx))
  }

  /** One tap's contribution to the cell it aims at; off-grid targets contribute nothing. */
  function ScatterTap(work: seq<seq<Rgb>>, h: nat, w: nat, y: int, x: int, err: Rgb, t: Tap): (r: seq<seq<Rgb>>)
    requires IsGrid(work, h, w)
    ensures IsGrid(r, h, w)
  {
    var ty, tx := y + t.dy, x + t.dx;
    if InBounds(h, w, ty, tx) then AddAt(work, ty, tx, Scale(t.weight, err)) else work
  }

  lemma {:induction false} ScatterTapCell(work: seq<seq<Rgb>>, h: nat, w: nat, y: int, x: int, err: Rgb, t: Tap, cy: int, cx: int)
    requires IsGrid(work, h, w)
    requires InBounds(h, w, cy, cx)
    ensures ScatterTap(work, h, w, y, x, err, t)[cy][cx]
         == Add(work[cy][cx], Scale(if t.dy == cy - y && t.dx == cx - x then t.weight else 0.0, err))
  {
    var ty, tx := y + t.dy, x + t.dx;
    if InBounds(h, w, ty, tx) {
      AddAtCell(work, h, w, ty, tx, Scale(t.weight, err), cy, cx);
    }
    ScaleByZero(work[cy][cx], err);
  }

  /** The scatter half of one scan step: each tap whose target lies on the
      grid receives its weight times `err`; targets off the grid are skipped,
      and a cell that no tap aims at keeps its value. */
  function Diffuse(work: seq<seq<Rgb>>, h: nat, w: nat, y: int, x: int, err: Rgb, taps: seq<Tap>): (r: seq<seq<Rgb>>)
    requires IsGrid(work, h, w)
    ensures IsGrid(r, h, w)
    ensures forall cy, cx :: InBounds(h, w, cy, cx) && !Aimed(taps, cy - y, cx - x) ==> r[cy][cx] == work[cy][cx]
    decreases |taps|
  {
    if taps == [] then work
    else Diffuse(ScatterTap(work, h, w, y, x, err, taps[0]), h, w, y, x, err, taps[1..])
  }

  /** Gather view of the scatter step: a cell on the grid gains exactly the
      weight of the taps aimed at it, times the error. */
  lemma {:induction false} DiffuseCell(work: seq<seq<Rgb>>, h: nat, w: nat, y: int, x: int, err: Rgb, taps: seq<Tap>, cy: int, cx: int)
    requires IsGrid(work, h, w)
    requires InBounds(h, w, cy, cx)
    ensures Diffuse(work, h, w, y, x, err, taps)[cy][cx] == Add(work[cy][cx], Scale(WeightAt(taps, cy - y, cx - x), err))
    decreases |taps|
  {
    if taps == [] {
      ScaleByZero(work[cy][cx], err);
    } else {
      var t := taps[0];
      var next := ScatterTap(work, h, w, y, x, err, t);
      var here := if t.dy == cy - y && t.dx == cx - x then t.weight else 0.0;
      DiffuseCell(next, h, w, y, x, err, taps[1..], cy, cx);
      ScatterTapCell(work, h, w, y, x, err, t, cy, cx);
      ScaleDistributes(here, WeightAt(taps[1..], cy - y, cx - x), err);
    }
  }

  /** Sum of all tap weights. */
  function TotalWeight(taps: seq<Tap>): real {
    if taps == [] then 0.0 else taps[0].weight + TotalWeight(taps[1..])
  }

  /** Sum of the weights of the taps whose target from (y, x) is on the grid. */
  function InBoundsWeight(taps: seq<Tap>, h: nat, w: nat, y: int, x: int): real {
    if taps == [] then 0.0
    else (if InBounds(h, w, y + taps[0].dy, x + taps[0].dx) then taps[0].weight else 0.0)
         + InBoundsWeight(taps[1..], h, w, y, x)
  }

  /** Floyd-Steinberg passes on all of the error; Atkinson passes on six eighths. */
  lemma KernelTotals()
    ensures TotalWeight(Taps(FloydSteinberg)) == 1.0
    ensures TotalWeight(Taps(Atkinson)) == 6.0 / 8.0
  {
  }

  /** Skipping targets never creates error: the amount passed on lies
      between nothing and the kernel's full weight. */
  lemma {:induction false} InBoundsWeightBounded(taps: seq<Tap>, h: nat, w: nat, y: int, x: int)
    requires forall i :: 0 <= i < |taps| ==> taps[i].weight >= 0.0
    ensures 0.0 <= InBoundsWeight(taps, h, w, y, x) <= TotalWeight(taps)
  {
    if taps != [] {
      InBoundsWeightBounded(taps[1..], h, w, y, x);
    }
  }

  /** When every target is on the grid, nothing is skipped. */
  lemma {:induction false} AllTargetsInBounds(taps: seq<Tap>, h: nat, w: nat, y: int, x: int)
    requires forall i :: 0 <= i < |taps| ==> InBounds(h, w, y + taps[i].dy, x + taps[i].dx)
    ensures InBoundsWeight(taps, h, w, y, x) == TotalWeight(taps)
  {
    if taps != [] {
      AllTargetsInBounds(taps[1..], h, w, y, x);
    }
  }

  /** Per-channel sum of the first `n` cells of a row, and of the first `m`
      rows of a grid; GridSum is the sum over the whole grid. */
  function RowSum(row: seq<Rgb>, n: nat): Rgb
    requires n <= |row|
  {
    if n == 0 then Zero else Add(RowSum(row, n - 1), row[n - 1])
  }

  function RowsSum(g: seq<seq<Rgb>>, m: nat): Rgb
    requires m <= |g|
  {
    if m == 0 then Zero else Add(RowsSum(g, m - 1), RowSum(g[m - 1], |g[m - 1]|))
  }

  function GridSum(g: seq<seq<Rgb>>): Rgb {
    RowsSum(g, |g|)
  }

  lemma {:induction false} RowSumAddAt(row: seq<Rgb>, x: nat, d: Rgb, n: nat)
    requires x < |row| && n <= |row|
    ensures RowSum(row[x := Add(row[x], d)], n) == if x < n then Add(RowSum(row, n), d) else RowSum(row, n)
  {
    if n > 0 {
      RowSumAddAt(row, x, d, n - 1);
    }
  }

  lemma {:induction false} RowsSumAddAt(g: seq<seq<Rgb>>, y: nat, x: nat, d: Rgb, m: nat)
    requires y < |g| && x < |g[y]| && m <= |g|
    ensures RowsSum(AddAt(g, y, x, d), m) == if y < m then Add(RowsSum(g, m), d) else RowsSum(g, m)
  {
    if m > 0 {
      RowsSumAddAt(g, y, x, d, m - 1);
      if m - 1 == y {
        RowSumAddAt(g[y], x, d, |g[y]|);
      }
    }
  }

  /** Adding `d` to one cell adds exactly `d` to the grid's sum. */
  lemma {:induction false} GridSumAddAt(g: seq<seq<Rgb>>, y: nat, x: nat, d: Rgb)
    requires y < |g| && x < |g[y]|
    ensures GridSum(AddAt(g, y, x, d)) == Add(GridSum(g), d)
  {
    RowsSumAddAt(g, y, x, d, |g|);
  }

  /** Conservation: one scatter step adds exactly the in-bounds share of the
      error to the grid's total, per channel. */
  lemma {:induction false} DiffuseAddsInBoundsShare(work: seq<seq<Rgb>>, h: nat, w: nat, y: int, x: int, err: Rgb, taps: seq<Tap>)
    requires IsGrid(work, h, w)
    ensures GridSum(Diffuse(work, h, w, y, x, err, taps)) == Add(GridSum(work), Scale(InBoundsWeight(taps, h, w, y, x), err))
    decreases |taps|
  {
    if taps != [] {
      var t := taps[0];
      var next := ScatterTap(work, h, w, y, x, err, t);
      if InBounds(h, w, y + t.dy, x + t.dx) {
        GridSumAddAt(work, y + t.dy, x + t.dx, Scale(t.weight, err));
      } else {
        ScaleByZero(GridSum(work), err);
      }
      DiffuseAddsInBoundsShare(next, h, w, y, x, err, taps[1..]);
      ScaleDistributes(if InBounds(h, w, y + t.dy, x + t.dx) then t.weight else 0.0,
                       InBoundsWeight(taps[1..], h, w, y, x), err);
    }
  }

  /** Floyd-Steinberg at an interior pixel passes on the whole error. */
  lemma {:induction false} FloydSteinbergConservesInterior(work: seq<seq<Rgb>>, h: nat, w: nat, y: nat, x: nat, err: Rgb)
    requires IsGrid(work, h, w)
    requires 0 < x && x + 1 < w && y + 1 < h
    ensures GridSum(Diffuse(work, h, w, y, x, err, Taps(FloydSteinberg))) == Add(GridSum(work), err)
  {
    KernelTotals();
    DiffuseAddsInBoundsShare(work, h, w, y, x, err, Taps(FloydSteinberg));
    AllTargetsInBounds(Taps(FloydSteinberg), h, w, y, x);
    assert Scale(1.0, err) == err;
  }

  /** Atkinson at an interior pixel passes on six eighths of the error. */
  lemma {:induction false} AtkinsonKeepsSixEighthsInterior(work: seq<seq<Rgb>>, h: nat, w: nat, y: nat, x: nat, err: Rgb)
    requires IsGrid(work, h, w)
    requires 0 < x && x + 2 < w && y + 2 < h
    ensures GridSum(Diffuse(work, h, w, y, x, err, Taps(Atkinson))) == Add(GridSum(work), Scale(6.0 / 8.0, err))
  {
    DiffuseAddsInBoundsShare(work, h, w, y, x, err, Taps(Atkinson));
    AllTargetsInBounds(Taps(Atkinson), h, w, y, x);
  }
}

=== FILE: dither.dfy ===
/** The dithering scan: a row-major pass over a private working copy of the
    image that quantises each cell to the palette and scatters the
    quantisation error to cells not yet visited; plus the undithered
    baseline that resolves every pixel on its own. */
module Dither {
  import opened Colors
  import opened Palette
  import opened Diffusion

  /** Gather view of error diffusion: the error that cell (cy, cx) has
      received from the cells visited before (vy, vx). Each tap points back
      to one source cell; a source that is on the grid and already visited
      contributes the tap's weight times its quantisation error, which is its
      working value minus the palette colour it was given. */
  function Incoming(taps: seq<Tap>, work: seq<seq<Rgb>>, colors: seq<seq<Rgb>>, h: nat, w: nat,
                    cy: int, cx: int, vy: int, vx: int): Rgb
    requires IsGrid(work, h, w) && IsGrid(colors, h, w)
  {
    SumRgb(Contributions(taps, work, colors, h, w, cy, cx, vy, vx))
  }

  /** The contribution of each tap, in kernel order. */
  function Contributions(taps: seq<Tap>, work: seq<seq<Rgb>>, colors: seq<seq<Rgb>>, h: nat, w: nat,
                         cy: int, cx: int, vy: int, vx: int): (cs: seq<Rgb>)
    requires IsGrid(work, h, w) && IsGrid(colors, h, w)
    ensures |cs| == |taps|
    ensures forall i :: 0 <= i < |taps| ==> cs[i] == SourceTerm(taps[i], work, colors, h, w, cy, cx, vy, vx)
  {
    seq(|taps|, i requires 0 <= i < |taps| => SourceTerm(taps[i], work, colors, h, w, cy, cx, vy, vx))
  }

  function SourceTerm(t: Tap, work: seq<seq<Rgb>>, colors: seq<seq<Rgb>>, h: nat, w: nat,
                      cy: int, cx: int, vy: int, vx: int): Rgb
    requires IsGrid(work, h, w) && IsGrid(colors, h, w)
  {
    var sy, sx := cy - t.dy, cx - t.dx;
    if InBounds(h, w, sy, sx) && Before(sy, sx, vy, vx)
    then Scale(t.weight, Sub(work[sy][sx], colors[sy][sx]))
    else Zero
  }

  /** Every cell visited before (vy, vx) holds a palette index, the matching
      palette colour, and the resolver's answer for its working value. */
  ghost predicate Visited(palette: seq<Rgb>, work: seq<seq<Rgb>>, indices: seq<seq<nat>>, colors: seq<seq<Rgb>>,
                          h: nat, w: nat, vy: int, vx: int)
  {
    && |palette| > 0
    && IsGrid(work, h, w) && IsGrid(indices, h, w) && IsGrid(colors, h, w)
    && forall cy, cx :: InBounds(h, w, cy, cx) && Before(cy, cx, vy, vx) ==>
         && indices[cy][cx] < |palette|
         && colors[cy][cx] == palette[indices[cy][cx]]
         && indices[cy][cx] == FindClosest(palette, work[cy][cx])
  }

  /** Every cell's working value is its input value plus the error gathered
      from the cells visited before (vy, vx). */
  ghost predicate Gathered(img: seq<seq<Rgb>>, taps: seq<Tap>, work: seq<seq<Rgb>>, colors: seq<seq<Rgb>>,
                           h: nat, w: nat, vy: int, vx: int)
  {
    && IsGrid(img, h, w) && IsGrid(work, h, w) && IsGrid(colors, h, w)
    && forall cy, cx :: InBounds(h, w, cy, cx) ==>
         work[cy][cx] == Add(img[cy][cx], Incoming(taps, work, colors, h, w, cy, cx, vy, vx))
  }

  /** What an error-diffusion scan with `taps` leaves behind, read cell by
      cell: each index is the resolver's answer for the value the cell held
      when the scan reached it (`perturbed`), and that value is the input
      plus the weighted errors of the cell's on-grid kernel sources. */
  ghost predicate DiffusedFrom(img: seq<seq<Rgb>>, palette: seq<Rgb>, taps: seq<Tap>, indices: seq<seq<nat>>,
                               colors: seq<seq<Rgb>>, perturbed: seq<seq<Rgb>>, h: nat, w: nat)
  {
    && |palette| > 0
    && IsGrid(img, h, w) && IsGrid(indices, h, w) && IsGrid(colors, h, w) && IsGrid(perturbed, h, w)
    && (forall y, x :: InBounds(h, w, y, x) ==> indices[y][x] == FindClosest(palette, perturbed[y][x]))
    && (forall y, x :: InBounds(h, w, y, x) ==>
          perturbed[y][x] == Add(img[y][x], Incoming(taps, perturbed, colors, h, w, y, x, h, 0)))
  }

  /** floyd_steinberg_dithering and atkinson_dithering. Besides the index
      grid and the colour grid, `perturbed` returns the final working grid:
      the value each cell had when the scan reached it. */
  method ErrorDiffusionDither(img: seq<seq<Rgb>>, h: nat, w: nat, palette: seq<Rgb>, kernel: Kernel)
    returns (indices: seq<seq<nat>>, colors: seq<seq<Rgb>>, perturbed: seq<seq<Rgb>>)
    requires |palette| > 0
    requires IsGrid(img, h, w)
    ensures IsGrid(indices, h, w) && IsGrid(colors, h, w) && IsGrid(perturbed, h, w)
    ensures forall y, x :: InBounds(h, w, y, x) ==>
      indices[y][x] < |palette| && colors[y][x] == palette[indices[y][x]]
    ensures DiffusedFrom(img, palette, Taps(kernel), indices, colors, perturbed, h, w)
  {
    var taps := Taps(kernel);
    KernelsPointForward(kernel);
    var work := img;
    indices := Filled(h, w, 0);
    colors := Filled(h, w, Zero);
    ScanStart(img, palette, taps, indices, colors, h, w);
    var y := 0;
    while y < h
      invariant y <= h
      invariant Visited(palette, work, indices, colors, h, w, y, 0)
      invariant Gathered(img, taps, work, colors, h, w, y, 0)
    {
      var x := 0;
      while x < w
        invariant x <= w
        invariant Visited(palette, work, indices, colors, h, w, y, x)
        invariant Gathered(img, taps, work, colors, h, w, y, x)
      {
        var oldPixel := work[y][x];
        var k := FindClosest(palette, oldPixel);
        var q := palette[k];
        var indices', colors' := SetCell(indices, y, x, k), SetCell(colors, y, x, q);
        var work' := Diffuse(work, h, w, y, x, Sub(oldPixel, q), taps);
        VisitStep(img, palette, taps, work, indices, colors, work', indices', colors', h, w, y, x);
        work, indices, colors := work', indices', colors';
        x := x + 1;
      }
      RowDone(img, palette, taps, work, indices, colors, h, w, y);
      y := y + 1;
    }
    perturbed := work;
    ScanEnd(img, palette, taps, perturbed, indices, colors, h, w);
  }

  /** Once every row is visited, the invariants read cell by cell. */
  lemma {:induction false} ScanEnd(img: seq<seq<Rgb>>, palette: seq<Rgb>, taps: seq<Tap>, work: seq<seq<Rgb>>, indices: seq<seq<nat>>,
                                   colors: seq<seq<Rgb>>, h: nat, w: nat)
    requires Visited(palette, work, indices, colors, h, w, h, 0)
    requires Gathered(img, taps, work, colors, h, w, h, 0)
    ensures forall y, x :: InBounds(h, w, y, x) ==>
      indices[y][x] < |palette| && colors[y][x] == palette[indices[y][x]]
    ensures forall y, x :: InBounds(h, w, y, x) ==>
      indices[y][x] == FindClosest(palette, work[y][x])
    ensures forall y, x :: InBounds(h, w, y, x) ==>
      work[y][x] == Add(img[y][x], Incoming(taps, work, colors, h, w, y, x, h, 0))
  {
    forall y, x | InBounds(h, w, y, x)
      ensures indices[y][x] < |palette| && colors[y][x] == palette[indices[y][x]]
      ensures indices[y][x] == FindClosest(palette, work[y][x])
    {
      assert Before(y, x, h, 0);
    }
  }

  /** Before the scan nothing is visited and every cell holds its input. */
  lemma {:induction false} ScanStart(img: seq<seq<Rgb>>, palette: seq<Rgb>, taps: seq<Tap>, indices: seq<seq<nat>>, colors: seq<seq<Rgb>>, h: nat, w: nat)
    requires |palette| > 0
    requires IsGrid(img, h, w) && IsGrid(indices, h, w) && IsGrid(colors, h, w)
    ensures Visited(palette, img, indices, colors, h, w, 0, 0)
    ensures Gathered(img, taps, img, colors, h, w, 0, 0)
  {
    forall cy, cx | InBounds(h, w, cy, cx)
      ensures img[cy][cx] == Add(img[cy][cx], Incoming(taps, img, colors, h, w, cy, cx, 0, 0))
    {
      NothingVisitedYet(taps, img, colors, h, w, cy, cx);
    }
  }

  /** Before the scan starts no error has arrived anywhere. */
  lemma {:induction false} NothingVisitedYet(taps: seq<Tap>, work: seq<seq<Rgb>>, colors: seq<seq<Rgb>>, h: nat, w: nat, cy: int, cx: int)
    requires IsGrid(work, h, w) && IsGrid(colors, h, w)
    ensures Incoming(taps, work, colors, h, w, cy, cx, 0, 0) == Zero
  {
    SumOfZeros(Contributions(taps, work, colors, h, w, cy, cx, 0, 0));
  }

  /** On the grid, "before the end of row y" and "before the start of row y + 1" agree. */
  lemma {:induction false} IncomingAtRowEnd(taps: seq<Tap>, work: seq<seq<Rgb>>, colors: seq<seq<Rgb>>, h: nat, w: nat, cy: int, cx: int, y: int)
    requires IsGrid(work, h, w) && IsGrid(colors, h, w)
    ensures Incoming(taps, work, colors, h, w, cy, cx, y, w) == Incoming(taps, work, colors, h, w, cy, cx, y + 1, 0)
  {
    assert Contributions(taps, work, colors, h, w, cy, cx, y, w) == Contributions(taps, work, colors, h, w, cy, cx, y + 1, 0);
  }

  lemma {:induction false} RowDone(img: seq<seq<Rgb>>, palette: seq<Rgb>, taps: seq<Tap>, work: seq<seq<Rgb>>, indices: seq<seq<nat>>,
                colors: seq<seq<Rgb>>, h: nat, w: nat, y: int)
    requires Visited(palette, work, indices, colors, h, w, y, w)
    requires Gathered(img, taps, work, colors, h, w, y, w)
    ensures Visited(palette, work, indices, colors, h, w, y + 1, 0)
    ensures Gathered(img, taps, work, colors, h, w, y + 1, 0)
  {
    forall cy, cx | InBounds(h, w, cy, cx)
      ensures work[cy][cx] == Add(img[cy][cx], Incoming(taps, work, colors, h, w, cy, cx, y + 1, 0))
    {
      IncomingAtRowEnd(taps, work, colors, h, w, cy, cx, y);
    }
  }

  /** Diffusion from (y, x) leaves (y, x) itself and every earlier cell alone. */
  lemma {:induction false} DiffuseKeepsVisited(work: seq<seq<Rgb>>, h: nat, w: nat, y: int, x: int, err: Rgb, taps: seq<Tap>, cy: int, cx: int)
    requires IsGrid(work, h, w)
    requires AllForward(taps)
    requires InBounds(h, w, cy, cx) && !Forward(cy - y, cx - x)
    ensures Diffuse(work, h, w, y, x, err, taps)[cy][cx] == work[cy][cx]
  {
    DiffuseCell(work, h, w, y, x, err, taps, cy, cx);
    NoWeightBackward(taps, cy - y, cx - x);
    ScaleByZero(work[cy][cx], err);
  }

  lemma {:induction false} DiffuseKeepsEarlier(work: seq<seq<Rgb>>, h: nat, w: nat, y: int, x: int, err: Rgb, taps: seq<Tap>)
    requires IsGrid(work, h, w)
    requires AllForward(taps)
    ensures forall sy, sx :: InBounds(h, w, sy, sx) && !Forward(sy - y, sx - x) ==>
      Diffuse(work, h, w, y, x, err, taps)[sy][sx] == work[sy][sx]
  {
    forall sy, sx | InBounds(h, w, sy, sx) && !Forward(sy - y, sx - x)
      ensures Diffuse(work, h, w, y, x, err, taps)[sy][sx] == work[sy][sx]
    {
      DiffuseKeepsVisited(work, h, w, y, x, err, taps, sy, sx);
    }
  }

  /** Visiting (y, x) switches on exactly the taps whose source is (y, x),
      each bringing its weight times the new quantisation error. */
  lemma {:induction false} SourceTermAfterVisit(t: Tap, work: seq<seq<Rgb>>, colors: seq<seq<Rgb>>, work': seq<seq<Rgb>>, colors': seq<seq<Rgb>>,
                             h: nat, w: nat, y: int, x: int, cy: int, cx: int, q: Rgb)
    requires IsGrid(work, h, w) && IsGrid(colors, h, w) && IsGrid(work', h, w) && IsGrid(colors', h, w)
    requires InBounds(h, w, y, x)
    requires forall sy, sx :: InBounds(h, w, sy, sx) && !Forward(sy - y, sx - x) ==> work'[sy][sx] == work[sy][sx]
    requires forall sy, sx :: InBounds(h, w, sy, sx) && (sy != y || sx != x) ==> colors'[sy][sx] == colors[sy][sx]
    requires colors'[y][x] == q
    ensures Shifted(SourceTerm(t, work, colors, h, w, cy, cx, y, x), SourceTerm(t, work', colors', h, w, cy, cx, y, x + 1),
                    TapShare(t, cy - y, cx - x), Sub(work[y][x], q))
  {
    var sy, sx := cy - t.dy, cx - t.dx;
    if sy == y && sx == x {
      assert work'[y][x] == work[y][x];
    } else if InBounds(h, w, sy, sx) && Before(sy, sx, y, x) {
      assert work'[sy][sx] == work[sy][sx];
    }
  }

  /** One visit adds to every cell's incoming error the cell's weight from
      (y, x) times the new quantisation error. */
  lemma {:induction false} IncomingAfterVisit(taps: seq<Tap>, work: seq<seq<Rgb>>, colors: seq<seq<Rgb>>, work': seq<seq<Rgb>>, colors': seq<seq<Rgb>>,
                           h: nat, w: nat, y: int, x: int, cy: int, cx: int, q: Rgb)
    requires IsGrid(work, h, w) && IsGrid(colors, h, w) && IsGrid(work', h, w) && IsGrid(colors', h, w)
    requires InBounds(h, w, y, x)
    requires forall sy, sx :: InBounds(h, w, sy, sx) && !Forward(sy - y, sx - x) ==> work'[sy][sx] == work[sy][sx]
    requires forall sy, sx :: InBounds(h, w, sy, sx) && (sy != y || sx != x) ==> colors'[sy][sx] == colors[sy][sx]
    requires colors'[y][x] == q
    ensures Shifted(Incoming(taps, work, colors, h, w, cy, cx, y, x), Incoming(taps, work', colors', h, w, cy, cx, y, x + 1),
                    WeightAt(taps, cy - y, cx - x), Sub(work[y][x], q))
  {
    var err := Sub(work[y][x], q);
    var before := Contributions(taps, work, colors, h, w, cy, cx, y, x);
    var after := Contributions(taps, work', colors', h, w, cy, cx, y, x + 1);
    var ws := Shares(taps, cy - y, cx - x);
    forall i | 0 <= i < |taps|
      ensures Shifted(before[i], after[i], ws[i], err)
    {
      SourceTermAfterVisit(taps[i], work, colors, work', colors', h, w, y, x, cy, cx, q);
    }
    SumShift(before, after, ws, err);
    WeightAtIsSumOfShares(taps, cy - y, cx - x);
  }

  /** One transition of the scan keeps both invariants, with the visited
      frontier moved one cell on. */
  lemma {:induction false} VisitStep(img: seq<seq<Rgb>>, palette: seq<Rgb>, taps: seq<Tap>,
                  work: seq<seq<Rgb>>, indices: seq<seq<nat>>, colors: seq<seq<Rgb>>,
                  work': seq<seq<Rgb>>, indices': seq<seq<nat>>, colors': seq<seq<Rgb>>,
                  h: nat, w: nat, y: nat, x: nat)
    requires y < h && x < w
    requires AllForward(taps)
    requires Visited(palette, work, indices, colors, h, w, y, x)
    requires Gathered(img, taps, work, colors, h, w, y, x)
    requires indices' == SetCell(indices, y, x, FindClosest(palette, work[y][x]))
    requires colors' == SetCell(colors, y, x, palette[FindClosest(palette, work[y][x])])
    requires work' == Diffuse(work, h, w, y, x, Sub(work[y][x], palette[FindClosest(palette, work[y][x])]), taps)
    ensures Visited(palette, work', indices', colors', h, w, y, x + 1)
    ensures Gathered(img, taps, work', colors', h, w, y, x + 1)
  {
    var k := FindClosest(palette, work[y][x]);
    var q := palette[k];
    var err := Sub(work[y][x], q);
    DiffuseKeepsEarlier(work, h, w, y, x, err, taps);
    forall cy, cx | InBounds(h, w, cy, cx)
      ensures work'[cy][cx] == Add(img[cy][cx], Incoming(taps, work', colors', h, w, cy, cx, y, x + 1))
    {
      CellAfterVisit(img, taps, work, colors, work', colors', h, w, y, x, cy, cx, q);
    }
  }

  /** The gather equation of one cell survives a visit: the cell gains its
      weight from (y, x) times the new error, and so does its incoming error. */
  lemma {:induction false} CellAfterVisit(img: seq<seq<Rgb>>, taps: seq<Tap>, work: seq<seq<Rgb>>, colors: seq<seq<Rgb>>,
                                          work': seq<seq<Rgb>>, colors': seq<seq<Rgb>>,
                                          h: nat, w: nat, y: int, x: int, cy: int, cx: int, q: Rgb)
    requires IsGrid(img, h, w) && IsGrid(work, h, w) && IsGrid(colors, h, w) && IsGrid(colors', h, w)
    requires InBounds(h, w, y, x) && InBounds(h, w, cy, cx)
    requires work' == Diffuse(work, h, w, y, x, Sub(work[y][x], q), taps)
    requires forall sy, sx :: InBounds(h, w, sy, sx) && !Forward(sy - y, sx - x) ==> work'[sy][sx] == work[sy][sx]
    requires forall sy, sx :: InBounds(h, w, sy, sx) && (sy != y || sx != x) ==> colors'[sy][sx] == colors[sy][sx]
    requires colors'[y][x] == q
    requires work[cy][cx] == Add(img[cy][cx], Incoming(taps, work, colors, h, w, cy, cx, y, x))
    ensures work'[cy][cx] == Add(img[cy][cx], Incoming(taps, work', colors', h, w, cy, cx, y, x + 1))
  {
    var err := Sub(work[y][x], q);
    DiffuseCell(work, h, w, y, x, err, taps, cy, cx);
    IncomingAfterVisit(taps, work, colors, work', colors', h, w, y, x, cy, cx, q);
    AddShifted(img[cy][cx], Incoming(taps, work, colors, h, w, cy, cx, y, x), Incoming(taps, work', colors', h, w, cy, cx, y, x + 1),
               WeightAt(taps, cy - y, cx - x), err);
  }

  /** The 'none' branch of generate_pixel_svg_retinex: each pixel of the
      unperturbed image is resolved on its own. */
  method NearestColors(img: seq<seq<Rgb>>, h: nat, w: nat, palette: seq<Rgb>)
    returns (indices: seq<seq<nat>>, colors: seq<seq<Rgb>>)
    requires |palette| > 0
    requires IsGrid(img, h, w)
    ensures IsGrid(indices, h, w) && IsGrid(colors, h, w)
    ensures forall y, x :: InBounds(h, w, y, x) ==>
      indices[y][x] == FindClosest(palette, img[y][x]) && colors[y][x] == palette[indices[y][x]]
  {
    indices := Filled(h, w, 0);
    colors := Filled(h, w, Zero);
    var y := 0;
    while y < h
      invariant y <= h
      invariant Visited(palette, img, indices, colors, h, w, y, 0)
    {
      var x := 0;
      while x < w
        invariant x <= w
        invariant Visited(palette, img, indices, colors, h, w, y, x)
      {
        var k := FindClosest(palette, img[y][x]);
        indices := SetCell(indices, y, x, k);
        colors := SetCell(colors, y, x, palette[k]);
        x := x + 1;
      }
      y := y + 1;
    }
  }

  /** The ditherer selection in generate_pixel_svg_retinex: 'floyd-steinberg'
      and 'atkinson' run the scan with their own kernel; any other name falls
      through to the undithered branch, whose working values are the input
      itself. */
  method QuantiseByName(img: seq<seq<Rgb>>, h: nat, w: nat, palette: seq<Rgb>, name: string)
    returns (indices: seq<seq<nat>>, colors: seq<seq<Rgb>>, perturbed: seq<seq<Rgb>>)
    requires |palette| > 0
    requires IsGrid(img, h, w)
    ensures IsGrid(indices, h, w) && IsGrid(colors, h, w) && IsGrid(perturbed, h, w)
    ensures forall y, x :: InBounds(h, w, y, x) ==>
      indices[y][x] < |palette| && colors[y][x] == palette[indices[y][x]]
    ensures name == "floyd-steinberg" ==>
      DiffusedFrom(img, palette, Taps(FloydSteinberg), indices, colors, perturbed, h, w)
    ensures name == "atkinson" ==>
      DiffusedFrom(img, palette, Taps(Atkinson), indices, colors, perturbed, h, w)
    ensures name != "floyd-steinberg" && name != "atkinson" ==>
      perturbed == img && forall y, x :: InBounds(h, w, y, x) ==> indices[y][x] == FindClosest(palette, img[y][x])
  {
    if name == "floyd-steinberg" {
      indices, colors, perturbed := ErrorDiffusionDither(img, h, w, palette, FloydSteinberg);
    } else if name == "atkinson" {
      indices, colors, perturbed := ErrorDiffusionDither(img, h, w, palette, Atkinson);
    } else {
      indices, colors := NearestColors(img, h, w, palette);
      perturbed := img;
    }
  }
}

=== FILE: hue_rule.dfy ===
/** The hue-rule classifier of the plain converter: dark pixels are black,
    greyish pixels are light grey or black by brightness, and every other
    pixel takes the target colour whose hue is nearest around the colour
    wheel. */
module HueRule {
  import Colors
  import opened ArgMin

  datatype Target = Target(hex: string, hue: real)

  /** The target table in its declared order; the order decides ties. */
  const TargetColors: seq<Target> := [
    Target("#FF0000", 0.0),
    Target("#FF8000", 30.0),
    Target("#D0D000", 60.0),
    Target("#00E000", 120.0),
    Target("#0000FF", 240.0),
    Target("#FF00FF", 300.0)
  ]

  const BlackHex: string := "#000000"
  const LightGrayHex: string := "#B4B4B4"

  /** Hues are degrees in [0, 360) and every entry names a colour. */
  ghost predicate ValidTable(table: seq<Target>) {
    && |table| > 0
    && forall i :: 0 <= i < |table| ==> 0.0 <= table[i].hue < 360.0 && table[i].hex != ""
  }

  lemma TargetColorsAreValid()
    ensures ValidTable(TargetColors)
  {
  }

  /** Shortest way round the colour wheel between two hues. */
  function AngularDiff(hue: real, target: real): (d: real)
    requires 0.0 <= hue < 360.0 && 0.0 <= target < 360.0
    ensures 0.0 <= d <= 180.0
    ensures d == 0.0 <==> hue == target
    ensures d <= Colors.Abs(hue - target) && d <= 360.0 - Colors.Abs(hue - target)
    ensures d == Colors.Abs(hue - target) || d == 360.0 - Colors.Abs(hue - target)
  {
    var diff := Colors.Abs(hue - target);
    if diff <= 360.0 - diff then diff else 360.0 - diff
  }

  /** The distance around the wheel does not depend on direction. */
  lemma AngularDiffIsSymmetric(a: real, b: real)
    requires 0.0 <= a < 360.0 && 0.0 <= b < 360.0
    ensures AngularDiff(a, b) == AngularDiff(b, a)
  {
  }

  /** The angular difference from `hue` to each target, in table order. */
  function HueDiffs(table: seq<Target>, hue: real): (ds: seq<real>)
    requires ValidTable(table) && 0.0 <= hue < 360.0
    ensures |ds| == |table|
    ensures forall j :: 0 <= j < |table| ==> ds[j] == AngularDiff(hue, table[j].hue)
  {
    seq(|table|, j requires 0 <= j < |table| => AngularDiff(hue, table[j].hue))
  }

  /** The target nearest to `hue` around the wheel, the earliest one on ties. */
  function NearestTarget(table: seq<Target>, hue: real): (k: nat)
    requires ValidTable(table) && 0.0 <= hue < 360.0
    ensures k < |table|
    ensures forall j :: 0 <= j < |table| ==> AngularDiff(hue, table[k].hue) <= AngularDiff(hue, table[j].hue)
    ensures forall j :: 0 <= j < k ==> AngularDiff(hue, table[j].hue) > AngularDiff(hue, table[k].hue)
  {
    FirstMin(HueDiffs(table, hue))
  }

  /** The matching loop as written: start from a minimum of 360 and no
      colour, and take an entry only when it is strictly nearer. */
  function HueScan(table: seq<Target>, hue: real, i: nat, minDiff: real, closest: string): string
    requires ValidTable(table) && 0.0 <= hue < 360.0 && i <= |table|
    decreases |table| - i
  {
    if i == |table| then closest
    else
      var d := AngularDiff(hue, table[i].hue);
      if d < minDiff then HueScan(table, hue, i + 1, d, table[i].hex)
      else HueScan(table, hue, i + 1, minDiff, closest)
  }

  /** The scan keeps its candidate when no remaining entry beats `minDiff`,
      and otherwise ends on the code of a remaining entry that does. */
  lemma {:induction false} HueScanOutcome(table: seq<Target>, hue: real, i: nat, minDiff: real, closest: string)
    requires ValidTable(table) && 0.0 <= hue < 360.0 && i <= |table|
    ensures (forall j :: i <= j < |table| ==> AngularDiff(hue, table[j].hue) >= minDiff) ==>
      HueScan(table, hue, i, minDiff, closest) == closest
    ensures (forall j :: i <= j < |table| ==> AngularDiff(hue, table[j].hue) >= minDiff)
      || exists j :: i <= j < |table| && AngularDiff(hue, table[j].hue) < minDiff
                     && HueScan(table, hue, i, minDiff, closest) == table[j].hex
    decreases |table| - i
  {
    if i < |table| {
      var d := AngularDiff(hue, table[i].hue);
      if d < minDiff {
        HueScanOutcome(table, hue, i + 1, d, table[i].hex);
      } else {
        HueScanOutcome(table, hue, i + 1, minDiff, closest);
      }
    }
  }

  /** Once the scan has seen `i` entries it holds their first minimum; so it
      ends holding the first minimum of the whole table. */
  lemma {:induction false} HueScanKeepsFirstMin(table: seq<Target>, hue: real, i: nat, minDiff: real, closest: string)
    requires ValidTable(table) && 0.0 <= hue < 360.0 && 0 < i <= |table|
    requires minDiff == HueDiffs(table, hue)[FirstMinAmong(HueDiffs(table, hue), i)]
    requires closest == table[FirstMinAmong(HueDiffs(table, hue), i)].hex
    ensures HueScan(table, hue, i, minDiff, closest) == table[NearestTarget(table, hue)].hex
    decreases |table| - i
  {
    var ds := HueDiffs(table, hue);
    if i < |table| {
      var k := FirstMinAmong(ds, i);
      if ds[i] < minDiff {
        assert FirstMinAmong(ds, i + 1) == i;
        HueScanKeepsFirstMin(table, hue, i + 1, ds[i], table[i].hex);
      } else {
        assert FirstMinAmong(ds, i + 1) == k;
        HueScanKeepsFirstMin(table, hue, i + 1, minDiff, closest);
      }
    }
  }

  /** The hue-matching loop of get_closest_color: it always picks some entry
      (no difference reaches the initial 360), and the one it picks is the
      nearest target, the earliest on ties. */
  function ClosestHueHex(table: seq<Target>, hue: real): (hex: string)
    requires ValidTable(table) && 0.0 <= hue < 360.0
    ensures hex == table[NearestTarget(table, hue)].hex
    ensures hex != ""
  {
    var ds := HueDiffs(table, hue);
    assert FirstMinAmong(ds, 1) == 0;
    HueScanKeepsFirstMin(table, hue, 1, ds[0], table[0].hex);
    HueScan(table, hue, 0, 360.0, "")
  }

  /** A hue that is exactly some target's hue maps to that target when the
      table's hues are distinct. */
  lemma ExactHueMapsToItsTarget(table: seq<Target>, k: nat)
    requires ValidTable(table) && k < |table|
    requires forall j :: 0 <= j < k ==> table[j].hue != table[k].hue
    ensures ClosestHueHex(table, table[k].hue) == table[k].hex
  {
    FirstMinIsUnique(HueDiffs(table, table[k].hue), k);
  }

  function Max3(a: real, b: real, c: real): real {
    if a >= b && a >= c then a else if b >= c then b else c
  }

  function Min3(a: real, b: real, c: real): real {
    if a <= b && a <= c then a else if b <= c then b else c
  }

  /** Hue, saturation, value with every component a fraction. */
  datatype Hsv = Hsv(h: real, s: real, v: real)

  /** Fractional part, as Python's `x % 1.0` computes it. */
  function FracPart(x: real): (f: real)
    ensures 0.0 <= f < 1.0
  {
    x - x.Floor as real
  }

  /** The standard RGB-to-HSV conversion (colorsys.rgb_to_hsv) over exact reals. */
  function RgbToHsv(r: real, g: real, b: real): (c: Hsv)
    requires 0.0 <= r && 0.0 <= g && 0.0 <= b
    ensures 0.0 <= c.h < 1.0 && 0.0 <= c.s <= 1.0
    ensures c.v == Max3(r, g, b)
    ensures c.s == 0.0 <==> Min3(r, g, b) == Max3(r, g, b)
  {
    var maxc, minc := Max3(r, g, b), Min3(r, g, b);
    if minc == maxc then Hsv(0.0, 0.0, maxc)
    else
      var range := maxc - minc;
      Colors.QuotientBounds(range, maxc);
      var rc, gc, bc := (maxc - r) / range, (maxc - g) / range, (maxc - b) / range;
      var h := if r == maxc then bc - gc else if g == maxc then 2.0 + rc - bc else 4.0 + gc - rc;
      Hsv(FracPart(h / 6.0), range / maxc, maxc)
  }

  /** get_closest_color over 8-bit channels. */
  function GetClosestColor(r: int, g: int, b: int): (hex: string)
    requires 0 <= r <= 255 && 0 <= g <= 255 && 0 <= b <= 255
    ensures hex == BlackHex || hex == LightGrayHex || exists k :: 0 <= k < |TargetColors| && hex == TargetColors[k].hex
    ensures hex != ""
    ensures Max3(r as real, g as real, b as real) < 25.0 ==> hex == BlackHex
  {
    if Max3(r as real, g as real, b as real) < 25.0 then BlackHex
    else
      var c := RgbToHsv(r as real / 255.0, g as real / 255.0, b as real / 255.0);
      if c.s < 0.45 || c.v < 0.15 then (if c.v > 0.5 then LightGrayHex else BlackHex)
      else
        TargetColorsAreValid();
        ClosestHueHex(TargetColors, c.h * 360.0)
  }

  /** Bright enough but greyish or dim pixels become light grey above half
      brightness and black otherwise. */
  lemma GreyishPixelsFallBack(r: int, g: int, b: int)
    requires 0 <= r <= 255 && 0 <= g <= 255 && 0 <= b <= 255
    requires Max3(r as real, g as real, b as real) >= 25.0
    requires var c := RgbToHsv(r as real / 255.0, g as real / 255.0, b as real / 255.0); c.s < 0.45 || c.v < 0.15
    ensures var c := RgbToHsv(r as real / 255.0, g as real / 255.0, b as real / 255.0);
      GetClosestColor(r, g, b) == if c.v > 0.5 then LightGrayHex else BlackHex
  {
  }

  /** Colourful pixels take the target nearest to their hue in degrees. */
  lemma ColourfulPixelsMatchHue(r: int, g: int, b: int)
    requires 0 <= r <= 255 && 0 <= g <= 255 && 0 <= b <= 255
    requires Max3(r as real, g as real, b as real) >= 25.0
    requires var c := RgbToHsv(r as real / 255.0, g as real / 255.0, b as real / 255.0); c.s >= 0.45 && c.v >= 0.15
    ensures var c := RgbToHsv(r as real / 255.0, g as real / 255.0, b as real / 255.0);
      && 0.0 <= c.h * 360.0 < 360.0
      && GetClosestColor(r, g, b) == TargetColors[NearestTarget(TargetColors, c.h * 360.0)].hex
  {
    TargetColorsAreValid();
  }

  /** Pure blue has hue 240 and maps to the blue target. */
  lemma PureBlueIsBlue()
    ensures GetClosestColor(0, 0, 255) == "#0000FF"
  {
    var c := RgbToHsv(0.0, 0.0, 1.0);
    assert c.h == 4.0 / 6.0;
    TargetColorsAreValid();
    ExactHueMapsToItsTarget(TargetColors, 4);
  }
}

=== FILE: palette.dfy ===
/** Palette resolution: nearest palette entry under a luminance-weighted
    distance, with ties going to the lowest index (numpy's argmin). */
module Palette {
  import opened Colors
  import opened ArgMin

  const WeightR: real := 0.299
  const WeightG: real := 0.587
  const WeightB: real := 0.114

  /** Squared weighted distance. find_closest_palette_color takes its square
      root before the argmin; the root is monotone, so the minimiser is the same. */
  function Distance(p: Rgb, c: Rgb): (d: real)
    ensures d >= 0.0
  {
    SquareIsPositive(c.r - p.r);
    SquareIsPositive(c.g - p.g);
    SquareIsPositive(c.b - p.b);
    WeightR * Square(c.r - p.r) + WeightG * Square(c.g - p.g) + WeightB * Square(c.b - p.b)
  }

  function Square(x: real): real {
    x * x
  }

  lemma SquareIsPositive(x: real)
    ensures Square(x) >= 0.0
    ensures x != 0.0 ==> Square(x) > 0.0
  {
    if x > 0.0 {
      calc {
        Square(x);
        x * x;
      >
        0.0;
      }
    } else if x < 0.0 {
      calc {
        Square(x);
        (-x) * (-x);
      >
        0.0;
      }
    }
  }

  /** The distance vanishes exactly on identical colours, because every
      weight is positive. */
  lemma DistanceZeroIffEqual(p: Rgb, c: Rgb)
    ensures Distance(p, c) == 0.0 <==> p == c
  {
    SquareIsPositive(c.r - p.r);
    SquareIsPositive(c.g - p.g);
    SquareIsPositive(c.b - p.b);
  }

  /** The distance from `p` to every palette entry, in palette order. */
  function Distances(palette: seq<Rgb>, p: Rgb): (ds: seq<real>)
    ensures |ds| == |palette|
    ensures forall j :: 0 <= j < |palette| ==> ds[j] == Distance(p, palette[j])
  {
    seq(|palette|, j requires 0 <= j < |palette| => Distance(p, palette[j]))
  }

  /** find_closest_palette_color with the palette passed explicitly: the
      lowest index among the entries nearest to `p`. */
  function FindClosest(palette: seq<Rgb>, p: Rgb): (k: nat)
    requires |palette| > 0
    ensures k < |palette|
    ensures forall j :: 0 <= j < |palette| ==> Distance(p, palette[k]) <= Distance(p, palette[j])
    ensures forall j :: 0 <= j < k ==> Distance(p, palette[j]) > Distance(p, palette[k])
  {
    FirstMin(Distances(palette, p))
  }

  /** A pixel that is exactly a palette colour resolves to the first entry
      holding that colour. */
  lemma ExactEntryResolvesToItself(palette: seq<Rgb>, k: nat)
    requires k < |palette|
    requires forall j :: 0 <= j < k ==> palette[j] != palette[k]
    ensures FindClosest(palette, palette[k]) == k
  {
    var p := palette[k];
    forall j | 0 <= j < k
      ensures Distance(p, palette[j]) > Distance(p, palette[k])
    {
      DistanceZeroIffEqual(p, palette[j]);
      DistanceZeroIffEqual(p, palette[k]);
    }
    FirstMinIsUnique(Distances(palette, p), k);
  }

  /** The engraver's ten colours in the order of the `PALETTE` table:
      Black, White (light grey), Gray, Purple, Blue, Green, Yellow, Orange, Red, Brown. */
  const LaserPalette: seq<Rgb> := [
    Rgb(0.0, 0.0, 0.0),
    Rgb(180.0, 180.0, 180.0),
    Rgb(128.0, 128.0, 128.0),
    Rgb(128.0, 0.0, 128.0),
    Rgb(0.0, 0.0, 255.0),
    Rgb(0.0, 224.0, 0.0),
    Rgb(208.0, 208.0, 0.0),
    Rgb(255.0, 128.0, 0.0),
    Rgb(255.0, 0.0, 0.0),
    Rgb(139.0, 69.0, 19.0)
  ]

  /** Every laser colour resolves to its own index: the table has no duplicates. */
  lemma LaserPaletteEntriesResolveToThemselves(k: nat)
    requires k < |LaserPalette|
    ensures FindClosest(LaserPalette, LaserPalette[k]) == k
  {
    ExactEntryResolvesToItself(LaserPalette, k);
  }

  /** Two-entry scenario: pure red goes to the red entry, pure black to the black one. */
  lemma RedAndBlackResolve()
    ensures FindClosest([Rgb(0.0, 0.0, 0.0), Rgb(255.0, 0.0, 0.0)], Rgb(255.0, 0.0, 0.0)) == 1
    ensures FindClosest([Rgb(0.0, 0.0, 0.0), Rgb(255.0, 0.0, 0.0)], Rgb(0.0, 0.0, 0.0)) == 0
  {
    ExactEntryResolvesToItself([Rgb(0.0, 0.0, 0.0), Rgb(255.0, 0.0, 0.0)], 1);
    ExactEntryResolvesToItself([Rgb(0.0, 0.0, 0.0), Rgb(255.0, 0.0, 0.0)], 0);
  }
}

=== FILE: retinex.dfy ===
/** The last stage of the Retinex enhancement: each channel of the retinex
    response is stretched linearly so that its minimum becomes 0 and its
    maximum 255, a flat channel becomes 128, and the result is clipped and
    cast to 8-bit. A channel is the flattened sequence of its cell values. */
module Retinex {
  import opened Colors

  /** The smallest value of a non-empty channel (numpy's `min`). */
  function MinOf(c: seq<real>): (m: real)
    requires |c| > 0
    ensures exists i :: 0 <= i < |c| && c[i] == m
    ensures forall i :: 0 <= i < |c| ==> m <= c[i]
  {
    if |c| == 1 then c[0]
    else
      var rest := MinOf(c[1..]);
      assert forall i :: 1 <= i < |c| ==> c[i] == c[1..][i - 1];
      if c[0] <= rest then c[0] else rest
  }

  /** The largest value of a non-empty channel (numpy's `max`). */
  function MaxOf(c: seq<real>): (m: real)
    requires |c| > 0
    ensures exists i :: 0 <= i < |c| && c[i] == m
    ensures forall i :: 0 <= i < |c| ==> c[i] <= m
  {
    if |c| == 1 then c[0]
    else
      var rest := MaxOf(c[1..]);
      assert forall i :: 1 <= i < |c| ==> c[i] == c[1..][i - 1];
      if c[0] >= rest then c[0] else rest
  }

  /** numpy's clip to [0, 255]. */
  function Clip(x: real): (y: real)
    ensures 0.0 <= y <= 255.0
    ensures 0.0 <= x <= 255.0 ==> y == x
    ensures x < 0.0 ==> y == 0.0
    ensures x > 255.0 ==> y == 255.0
  {
    if x < 0.0 then 0.0 else if x > 255.0 then 255.0 else x
  }

  /** The cast to uint8 of a value already clipped to [0, 255]: the
      fraction is dropped, which for non-negative values is the floor. */
  function ToByte(x: real): (b: int)
    requires 0.0 <= x <= 255.0
    ensures 0 <= b <= 255
    ensures b as real <= x < b as real + 1.0
  {
    x.Floor
  }

  /** Value used for every cell of a channel that has no spread. */
  const FlatLevel: int := 128

  /** Where `x` sits between `lo` and `hi`, as a fraction. */
  function Fraction(x: real, lo: real, hi: real): real
    requires lo < hi
  {
    (x - lo) / (hi - lo)
  }

  /** The linear stretch of `x` from [lo, hi] onto [0, 255]. */
  function Stretch(x: real, lo: real, hi: real): real
    requires lo < hi
  {
    255.0 * Fraction(x, lo, hi)
  }

  lemma QuotientIsMonotone(a: real, b: real, d: real)
    requires d > 0.0 && a <= b
    ensures a / d <= b / d
  {
  }

  lemma QuotientBySelf(d: real)
    requires d > 0.0
    ensures d / d == 1.0
  {
  }

  lemma FractionBounds(x: real, lo: real, hi: real)
    requires lo < hi && lo <= x <= hi
    ensures 0.0 <= Fraction(x, lo, hi) <= 1.0
  {
    QuotientBounds(x - lo, hi - lo);
  }

  lemma FractionAtEnds(lo: real, hi: real)
    requires lo < hi
    ensures Fraction(lo, lo, hi) == 0.0
    ensures Fraction(hi, lo, hi) == 1.0
  {
    QuotientBySelf(hi - lo);
  }

  /** Inside [lo, hi] the stretch stays inside [0, 255], so the clip that
      follows it changes nothing. */
  lemma StretchStaysInRange(x: real, lo: real, hi: real)
    requires lo < hi && lo <= x <= hi
    ensures 0.0 <= Stretch(x, lo, hi) <= 255.0
    ensures Clip(Stretch(x, lo, hi)) == Stretch(x, lo, hi)
  {
    FractionBounds(x, lo, hi);
  }

  lemma FractionIsMonotone(x: real, y: real, lo: real, hi: real)
    requires lo < hi && x <= y
    ensures Fraction(x, lo, hi) <= Fraction(y, lo, hi)
  {
    QuotientIsMonotone(x - lo, y - lo, hi - lo);
  }

  lemma StretchIsMonotone(x: real, y: real, lo: real, hi: real)
    requires lo < hi && x <= y
    ensures Stretch(x, lo, hi) <= Stretch(y, lo, hi)
  {
    FractionIsMonotone(x, y, lo, hi);
  }

  /** One normalised channel, or None for an empty one (numpy's `min` has
      no value to return there). */
  function NormalizeChannel(c: seq<real>): (r: Option<seq<int>>)
    ensures r.None? <==> |c| == 0
    ensures r.Some? ==> |r.value| == |c|
    ensures r.Some? ==> forall i :: 0 <= i < |c| ==> 0 <= r.value[i] <= 255
  {
    if |c| == 0 then None
    else
      var lo, hi := MinOf(c), MaxOf(c);
      if hi > lo then
        Some(seq(|c|, i requires 0 <= i < |c| => ToByte(Clip(Stretch(c[i], lo, hi)))))
      else
        Some(seq(|c|, _ => FlatLevel))
  }

  /** The cell-wise reading of a channel with spread. */
  lemma NormalizedCell(c: seq<real>, i: nat)
    requires i < |c| && MinOf(c) < MaxOf(c)
    ensures NormalizeChannel(c).value[i] == ToByte(Clip(Stretch(c[i], MinOf(c), MaxOf(c))))
  {
  }

  /** A channel with no spread comes out uniformly 128. */
  lemma FlatChannelIsMidLevel(c: seq<real>)
    requires |c| > 0
    requires forall i :: 0 <= i < |c| ==> c[i] == c[0]
    ensures NormalizeChannel(c).Some?
    ensures forall i :: 0 <= i < |c| ==> NormalizeChannel(c).value[i] == FlatLevel
  {
    var lo, hi := MinOf(c), MaxOf(c);
    assert lo == c[0] && hi == c[0];
  }

  /** A channel with spread sends its minimum to 0 ... */
  lemma MinimumMapsToZero(c: seq<real>, i: nat)
    requires i < |c| && MinOf(c) < MaxOf(c) && c[i] == MinOf(c)
    ensures NormalizeChannel(c).value[i] == 0
  {
    NormalizedCell(c, i);
    FractionAtEnds(MinOf(c), MaxOf(c));
  }

  /** ... and its maximum to 255. */
  lemma MaximumMapsTo255(c: seq<real>, i: nat)
    requires i < |c| && MinOf(c) < MaxOf(c) && c[i] == MaxOf(c)
    ensures NormalizeChannel(c).value[i] == 255
  {
    NormalizedCell(c, i);
    FractionAtEnds(MinOf(c), MaxOf(c));
  }

  /** The normalisation keeps the order of the cells: a brighter input is
      never a darker output. */
  lemma NormalizeIsMonotone(c: seq<real>, i: nat, j: nat)
    requires i < |c| && j < |c| && c[i] <= c[j]
    ensures NormalizeChannel(c).value[i] <= NormalizeChannel(c).value[j]
  {
    var lo, hi := MinOf(c), MaxOf(c);
    if hi > lo {
      NormalizedCell(c, i);
      NormalizedCell(c, j);
      StretchIsMonotone(c[i], c[j], lo, hi);
      StretchStaysInRange(c[i], lo, hi);
      StretchStaysInRange(c[j], lo, hi);
    }
  }

  /** All three channels normalised independently, the 8-bit results held
      as channel values again so they can feed the quantiser. */
  function NormalizeImage(pixels: seq<Rgb>): (r: Option<seq<Rgb>>)
    ensures r.None? <==> |pixels| == 0
    ensures r.Some? ==> |r.value| == |pixels|
    ensures r.Some? ==> forall i :: 0 <= i < |pixels| ==>
      && 0.0 <= r.value[i].r <= 255.0 && 0.0 <= r.value[i].g <= 255.0 && 0.0 <= r.value[i].b <= 255.0
  {
    var rs, gs, bs := NormalizeChannel(Plane(pixels, Red)), NormalizeChannel(Plane(pixels, Green)), NormalizeChannel(Plane(pixels, Blue));
    if rs.None? || gs.None? || bs.None? then None
    else
      Some(seq(|pixels|, i requires 0 <= i < |pixels| =>
        Rgb(rs.value[i] as real, gs.value[i] as real, bs.value[i] as real)))
  }

  /** A uniform image carries no contrast, so it comes out mid grey. */
  lemma UniformImageBecomesMidGrey(pixels: seq<Rgb>)
    requires |pixels| > 0
    requires forall i :: 0 <= i < |pixels| ==> pixels[i] == pixels[0]
    ensures NormalizeImage(pixels) == Some(seq(|pixels|, _ => Rgb(128.0, 128.0, 128.0)))
  {
    FlatChannelIsMidLevel(Plane(pixels, Red));
    FlatChannelIsMidLevel(Plane(pixels, Green));
    FlatChannelIsMidLevel(Plane(pixels, Blue));
    var r := NormalizeImage(pixels);
    forall i | 0 <= i < |pixels|
      ensures r.value[i] == Rgb(128.0, 128.0, 128.0)
    {
      assert NormalizeChannel(Plane(pixels, Red)).value[i] == FlatLevel;
      assert NormalizeChannel(Plane(pixels, Green)).value[i] == FlatLevel;
      assert NormalizeChannel(Plane(pixels, Blue)).value[i] == FlatLevel;
    }
    assert r.value == seq(|pixels|, _ => Rgb(128.0, 128.0, 128.0));
  }
}

=== FILE: saturation.dfy ===
/** The saturation cap of the colour-differential enhancement: each pixel's
    HSV saturation is multiplied by a strength that is damped towards the
    dark and bright ends of the value range, and capped at 1. The HSV
    conversions around it are not part of this model. */
module Saturation {
  import Colors

  function Min(a: real, b: real): real {
    if a <= b then a else b
  }

  /** The damping factor: 1 at mid value, falling linearly to 3/4 at
      value 0 and at value 1. */
  function Damping(v: real): (f: real)
    requires 0.0 <= v <= 1.0
    ensures 0.75 <= f <= 1.0
    ensures f == 1.0 <==> v == 0.5
  {
    1.0 - Colors.Abs(v - 0.5) * 0.5
  }

  /** The multiplier applied to the saturation. */
  function AdaptiveStrength(strength: real, v: real): real
    requires 0.0 <= v <= 1.0
  {
    strength * Damping(v)
  }

  /** The new saturation of a pixel with saturation `s` and value `v`: the
      boosted saturation, cut down to 1 where it would exceed it. */
  function BoostSaturation(s: real, v: real, strength: real): (r: real)
    requires 0.0 <= v <= 1.0
    ensures r <= 1.0 && r <= s * AdaptiveStrength(strength, v)
    ensures r == 1.0 || r == s * AdaptiveStrength(strength, v)
  {
    Min(1.0, s * AdaptiveStrength(strength, v))
  }

  lemma MulMonotone(a: real, b: real, k: real)
    requires a <= b && k >= 0.0
    ensures a * k <= b * k
  {
    assert b * k - a * k == (b - a) * k;
  }

  /** For a non-negative strength the multiplier lies between three
      quarters of the strength and the full strength, reaching the full
      strength only at mid value. */
  lemma AdaptiveStrengthBounds(strength: real, v: real)
    requires 0.0 <= v <= 1.0 && strength >= 0.0
    ensures 0.75 * strength <= AdaptiveStrength(strength, v) <= strength
    ensures v == 0.5 ==> AdaptiveStrength(strength, v) == strength
  {
    var f := Damping(v);
    assert AdaptiveStrength(strength, v) == f * strength;
    MulMonotone(0.75, f, strength);
    MulMonotone(f, 1.0, strength);
    assert f * strength <= strength;
    if v == 0.5 {
      assert f == 1.0;
    }
  }

  /** A saturation in [0, 1] stays in [0, 1] for any non-negative strength. */
  lemma BoostStaysInUnit(s: real, v: real, strength: real)
    requires 0.0 <= s <= 1.0 && 0.0 <= v <= 1.0 && strength >= 0.0
    ensures 0.0 <= BoostSaturation(s, v, strength) <= 1.0
  {
    AdaptiveStrengthBounds(strength, v);
    var a := AdaptiveStrength(strength, v);
    MulMonotone(0.0, s, a);
    assert 0.0 <= s * a;
  }

  /** From a strength of 4/3 up, which includes the 1.5 the converter
      uses, no pixel loses saturation below the cap. */
  lemma StrongBoostNeverLowers(s: real, v: real, strength: real)
    requires 0.0 <= s <= 1.0 && 0.0 <= v <= 1.0 && strength >= 4.0 / 3.0
    ensures BoostSaturation(s, v, strength) >= s
  {
    AdaptiveStrengthBounds(strength, v);
    var a := AdaptiveStrength(strength, v);
    assert a >= 1.0;
    MulMonotone(1.0, a, s);
    assert s <= s * a;
    assert BoostSaturation(s, v, strength) == Min(1.0, s * a);
  }

  /** As written, a strength of 1.0 is not "no change": a fully saturated,
      fully bright pixel loses a quarter of its saturation. */
  lemma UnitStrengthIsNotIdentity()
    ensures BoostSaturation(1.0, 1.0, 1.0) == 0.75
  {
  }

  /** The evidently intended multiplier: the damping applies to the part of
      the strength above (or below) 1, so 1.0 leaves the pixel alone. */
  function IntendedStrength(strength: real, v: real): real
    requires 0.0 <= v <= 1.0
  {
    1.0 + (strength - 1.0) * Damping(v)
  }

  function BoostSaturationIntended(s: real, v: real, strength: real): real
    requires 0.0 <= v <= 1.0
  {
    Min(1.0, s * IntendedStrength(strength, v))
  }

  /** With the intended multiplier a strength of 1.0 is the identity on
      saturations in [0, 1]. */
  lemma IntendedUnitStrengthIsIdentity(s: real, v: real)
    requires 0.0 <= s <= 1.0 && 0.0 <= v <= 1.0
    ensures BoostSaturationIntended(s, v, 1.0) == s
  {
  }

  /** With the intended multiplier any strength of at least 1.0 never lowers
      a saturation, and the result stays in [0, 1]. */
  lemma IntendedBoostNeverLowers(s: real, v: real, strength: real)
    requires 0.0 <= s <= 1.0 && 0.0 <= v <= 1.0 && strength >= 1.0
    ensures s <= BoostSaturationIntended(s, v, strength) <= 1.0
  {
    var m := IntendedStrength(strength, v);
    MulMonotone(0.0, strength - 1.0, Damping(v));
    assert m >= 1.0;
    MulMonotone(1.0, m, s);
  }

  /** At mid value the damping is 1, so the intended and the written
      multipliers agree there. */
  lemma IntendedAgreesAtMidValue(s: real, strength: real)
    ensures BoostSaturationIntended(s, 0.5, strength) == BoostSaturation(s, 0.5, strength)
  {
  }
}

=== FILE: scenarios.dfy ===
/** Small worked examples, each derived only from the contracts of the
    operations it calls. */
module Scenarios {
  import opened Colors
  import opened Palette
  import opened Diffusion
  import opened Dither

  function Grey(v: real): Rgb {
    Rgb(v, v, v)
  }

  /** With two entries the resolver picks the second one exactly when it
      is strictly nearer. */
  lemma TwoEntryChoice(palette: seq<Rgb>, p: Rgb)
    requires |palette| == 2
    ensures FindClosest(palette, p) == if Distance(p, palette[1]) < Distance(p, palette[0]) then 1 else 0
  {
  }

  /** In a one-column grid only the tap straight down lands on the grid, so
      each cell receives 5/16 of the error of the cell above it. */
  lemma {:induction false} OneColumnIncoming(work: seq<seq<Rgb>>, colors: seq<seq<Rgb>>, h: nat, cy: nat)
    requires IsGrid(work, h, 1) && IsGrid(colors, h, 1) && cy < h
    ensures cy == 0 ==> Incoming(Taps(FloydSteinberg), work, colors, h, 1, cy, 0, h, 0) == Zero
    ensures cy > 0 ==>
      Incoming(Taps(FloydSteinberg), work, colors, h, 1, cy, 0, h, 0) == Scale(5.0 / 16.0, Sub(work[cy - 1][0], colors[cy - 1][0]))
  {
    OneColumnContributions(work, colors, h, cy);
    SumOfSingle(Contributions(Taps(FloydSteinberg), work, colors, h, 1, cy, 0, h, 0), 2);
  }

  /** In one column, the only Floyd-Steinberg source on the grid is the cell above. */
  lemma OneColumnContributions(work: seq<seq<Rgb>>, colors: seq<seq<Rgb>>, h: nat, cy: nat)
    requires IsGrid(work, h, 1) && IsGrid(colors, h, 1) && cy < h
    ensures Contributions(Taps(FloydSteinberg), work, colors, h, 1, cy, 0, h, 0)
      == [Zero, Zero, if cy > 0 then Scale(5.0 / 16.0, Sub(work[cy - 1][0], colors[cy - 1][0])) else Zero, Zero]
  {
    var taps := Taps(FloydSteinberg);
    var cs := Contributions(taps, work, colors, h, 1, cy, 0, h, 0);
    assert taps[0] == Tap(0, 1, 7.0 / 16.0) && taps[1] == Tap(1, -1, 3.0 / 16.0);
    assert taps[2] == Tap(1, 0, 5.0 / 16.0) && taps[3] == Tap(1, 1, 1.0 / 16.0);
    assert cs[0] == Zero && cs[1] == Zero && cs[3] == Zero;
    var down := if cy > 0 then Scale(5.0 / 16.0, Sub(work[cy - 1][0], colors[cy - 1][0])) else Zero;
    assert cs[2] == down;
    assert |cs| == 4;
    assert cs == [Zero, Zero, down, Zero];
  }

  /** Cell value `p` is grey `input` plus 5/16 of the error of the cell
      above, which held `above` and was given `given`, channel by channel. */
  predicate FedFromAbove(p: Rgb, input: real, above: Rgb, given: Rgb) {
    && p.r == input + 5.0 / 16.0 * (above.r - given.r)
    && p.g == input + 5.0 / 16.0 * (above.g - given.g)
    && p.b == input + 5.0 / 16.0 * (above.b - given.b)
  }

  const StripPalette: seq<Rgb> := [Grey(0.0), Grey(180.0)]

  /** The three values the strip's cells hold when the scan reaches them,
      resolved against black and light grey. */
  lemma StripResolutions()
    ensures FindClosest(StripPalette, Grey(10.0)) == 0
    ensures FindClosest(StripPalette, Grey(253.125)) == 1
    ensures FindClosest(StripPalette, Grey(272.8515625)) == 1
  {
    TwoEntryChoice(StripPalette, Grey(10.0));
    assert Distance(Grey(10.0), Grey(0.0)) == 100.0;
    assert Distance(Grey(10.0), Grey(180.0)) == 28900.0;
    TwoEntryChoice(StripPalette, Grey(253.125));
    assert Distance(Grey(253.125), Grey(0.0)) == 253.125 * 253.125;
    assert Distance(Grey(253.125), Grey(180.0)) == 73.125 * 73.125;
    TwoEntryChoice(StripPalette, Grey(272.8515625));
    assert Distance(Grey(272.8515625), Grey(0.0)) == 272.8515625 * 272.8515625;
    assert Distance(Grey(272.8515625), Grey(180.0)) == 92.8515625 * 92.8515625;
  }

  /** A cell of a one-column Floyd-Steinberg result holds its input plus,
      below the top row, 5/16 of the error of the cell above. */
  lemma {:induction false} OneColumnCell(perturbed: seq<seq<Rgb>>, colors: seq<seq<Rgb>>, h: nat, y: nat, input: Rgb)
    requires IsGrid(perturbed, h, 1) && IsGrid(colors, h, 1) && y < h
    requires perturbed[y][0] == Add(input, Incoming(Taps(FloydSteinberg), perturbed, colors, h, 1, y, 0, h, 0))
    ensures y == 0 ==> perturbed[y][0] == input
    ensures y > 0 ==> perturbed[y][0] == Add(input, Scale(5.0 / 16.0, Sub(perturbed[y - 1][0], colors[y - 1][0])))
  {
    OneColumnIncoming(perturbed, colors, h, y);
  }

  /** What each strip cell holds when the scan reaches it: the top cell
      its input, each lower cell its input shifted by 5/16 of the error of
      the cell above. */
  lemma {:induction false} StripValues(perturbed: seq<seq<Rgb>>, colors: seq<seq<Rgb>>)
    requires IsGrid(perturbed, 3, 1) && IsGrid(colors, 3, 1)
    requires perturbed[0][0] == Add(Grey(10.0), Incoming(Taps(FloydSteinberg), perturbed, colors, 3, 1, 0, 0, 3, 0))
    requires perturbed[1][0] == Add(Grey(250.0), Incoming(Taps(FloydSteinberg), perturbed, colors, 3, 1, 1, 0, 3, 0))
    requires perturbed[2][0] == Add(Grey(250.0), Incoming(Taps(FloydSteinberg), perturbed, colors, 3, 1, 2, 0, 3, 0))
    ensures perturbed[0][0] == Grey(10.0)
    ensures FedFromAbove(perturbed[1][0], 250.0, perturbed[0][0], colors[0][0])
    ensures FedFromAbove(perturbed[2][0], 250.0, perturbed[1][0], colors[1][0])
  {
    OneColumnCell(perturbed, colors, 3, 0, Grey(10.0));
    OneColumnCell(perturbed, colors, 3, 1, Grey(250.0));
    ShiftedIsAdd(Grey(250.0), perturbed[1][0], 5.0 / 16.0, Sub(perturbed[0][0], colors[0][0]));
    OneColumnCell(perturbed, colors, 3, 2, Grey(250.0));
    ShiftedIsAdd(Grey(250.0), perturbed[2][0], 5.0 / 16.0, Sub(perturbed[1][0], colors[1][0]));
  }

  /** A strip cell at one of the three grey levels the scan meets resolves
      to the expected palette index. */
  lemma StripCellResolves(p: Rgb, v: real, i: nat, k: nat)
    requires p == Grey(v) && i == FindClosest(StripPalette, p)
    requires (v == 10.0 && k == 0) || (v == 253.125 && k == 1) || (v == 272.8515625 && k == 1)
    ensures i == k && StripPalette[i] == Grey(if k == 0 then 0.0 else 180.0)
  {
    StripResolutions();
  }

  /** One step down the strip: a cell holding 250 shifted by 5/16 of the
      error of a grey cell above that held `above` and was given `given`
      holds `expected` and resolves to palette index `k`. */
  lemma StripStep(p: Rgb, a: Rgb, g: Rgb, i: nat, above: real, given: real, expected: real, k: nat)
    requires FedFromAbove(p, 250.0, a, g)
    requires a == Grey(above) && g == Grey(given)
    requires expected == 250.0 + (above - given) * 5.0 / 16.0
    requires i == FindClosest(StripPalette, p)
    requires (expected == 253.125 && k == 1) || (expected == 272.8515625 && k == 1)
    ensures p == Grey(expected)
    ensures i == k && StripPalette[i] == Grey(180.0)
  {
    assert p == Grey(expected);
    StripCellResolves(p, expected, i, k);
  }

  /** A three-row, one-column grid is determined by its three cells. */
  lemma ColumnOfThree(g: seq<seq<nat>>, a: nat, b: nat, c: nat)
    requires IsGrid(g, 3, 1) && g[0][0] == a && g[1][0] == b && g[2][0] == c
    ensures g == [[a], [b], [c]]
  {
    assert g[0] == [a] && g[1] == [b] && g[2] == [c];
  }

  /** The strip's arithmetic once each cell is known to hold its input
      shifted by the share of the error from above. */
  lemma {:induction false} StripCells(indices: seq<seq<nat>>, colors: seq<seq<Rgb>>, perturbed: seq<seq<Rgb>>)
    requires IsGrid(indices, 3, 1) && IsGrid(colors, 3, 1) && IsGrid(perturbed, 3, 1)
    requires perturbed[0][0] == Grey(10.0)
    requires FedFromAbove(perturbed[1][0], 250.0, perturbed[0][0], colors[0][0])
    requires FedFromAbove(perturbed[2][0], 250.0, perturbed[1][0], colors[1][0])
    requires indices[0][0] == FindClosest(StripPalette, perturbed[0][0])
    requires indices[1][0] == FindClosest(StripPalette, perturbed[1][0])
    requires indices[2][0] == FindClosest(StripPalette, perturbed[2][0])
    requires colors[0][0] == StripPalette[indices[0][0]] && colors[1][0] == StripPalette[indices[1][0]]
    ensures indices == [[0], [1], [1]]
  {
    // Top cell: nothing comes from above, so it keeps 10 and goes to black.
    StripCellResolves(perturbed[0][0], 10.0, indices[0][0], 0);
    // Middle cell: 5/16 of the +10 error, giving 253.125, which goes to grey.
    StripStep(perturbed[1][0], perturbed[0][0], colors[0][0], indices[1][0], 10.0, 0.0, 253.125, 1);
    // Bottom cell: 5/16 of the +73.125 error, giving 272.8515625, grey again.
    StripStep(perturbed[2][0], perturbed[1][0], colors[1][0], indices[2][0], 253.125, 180.0, 272.8515625, 1);
    ColumnOfThree(indices, 0, 1, 1);
  }

  const StripImage: seq<seq<Rgb>> := [[Grey(10.0)], [Grey(250.0)], [Grey(250.0)]]

  /** The contract of the 'floyd-steinberg' selection for the strip, read
      at its three cells. */
  method DitherStrip() returns (indices: seq<seq<nat>>, colors: seq<seq<Rgb>>, perturbed: seq<seq<Rgb>>)
    ensures IsGrid(indices, 3, 1) && IsGrid(colors, 3, 1) && IsGrid(perturbed, 3, 1)
    ensures perturbed[0][0] == Add(Grey(10.0), Incoming(Taps(FloydSteinberg), perturbed, colors, 3, 1, 0, 0, 3, 0))
    ensures perturbed[1][0] == Add(Grey(250.0), Incoming(Taps(FloydSteinberg), perturbed, colors, 3, 1, 1, 0, 3, 0))
    ensures perturbed[2][0] == Add(Grey(250.0), Incoming(Taps(FloydSteinberg), perturbed, colors, 3, 1, 2, 0, 3, 0))
    ensures indices[0][0] == FindClosest(StripPalette, perturbed[0][0])
    ensures indices[1][0] == FindClosest(StripPalette, perturbed[1][0])
    ensures indices[2][0] == FindClosest(StripPalette, perturbed[2][0])
    ensures colors[0][0] == StripPalette[indices[0][0]] && colors[1][0] == StripPalette[indices[1][0]]
  {
    indices, colors, perturbed := QuantiseByName(StripImage, 3, 1, StripPalette, "floyd-steinberg");
    assert InBounds(3, 1, 0, 0) && InBounds(3, 1, 1, 0) && InBounds(3, 1, 2, 0);
  }

  /** A three-row, one-column strip (10, 250, 250) dithered with
      Floyd-Steinberg onto black and light grey: the dark top cell goes to
      black; its error of +10 reaches the next cell down with weight 5/16,
      which goes to grey; the grey cell's error of +73.125 reaches the last
      cell, which goes to grey too. */
  method VerticalStripScenario() returns (indices: seq<seq<nat>>)
    ensures indices == [[0], [1], [1]]
  {
    var colors, perturbed;
    indices, colors, perturbed := DitherStrip();
    StripValues(perturbed, colors);
    StripCells(indices, colors, perturbed);
  }

  const RedBlackImage: seq<seq<Rgb>> := [[Rgb(255.0, 0.0, 0.0), Rgb(0.0, 0.0, 0.0)]]

  /** A red pixel and a black pixel resolved without dithering onto
      [black, red] give the index row [1, 0]. */
  method RedBlackScenario() returns (indices: seq<seq<nat>>)
    ensures indices == [[1, 0]]
  {
    var palette := [Rgb(0.0, 0.0, 0.0), Rgb(255.0, 0.0, 0.0)];
    var colors, perturbed;
    indices, colors, perturbed := QuantiseByName(RedBlackImage, 1, 2, palette, "none");
    assert InBounds(1, 2, 0, 0) && InBounds(1, 2, 0, 1);
    RedAndBlackResolve();
    assert indices[0] == [1, 0];
  }
}
